=== FILE: README.md ===
# coachbot in Dafny

A verified model of the decision logic of coachbot, a fantasy-football chat bot.
The bot reads league data from ESPN's fantasy API and answers chat commands.
Its replies cover scores, standings, who owns a player, injured starters, a
team's roster, the week's trophies and Monday-night close games. A weekly
timetable sends the same reports unprompted.

The model lifts the pure parts of the Go code out of their I/O-bearing methods
and states them as functions over immutable records. The modules follow the
source's layers:

| module | file | models |
|---|---|---|
| `Wrappers` | wrappers.dfy | `Option` and `Result` (a Go `(value, error)` pair) |
| `Models` | models.dfy | the decoded provider records and the report records |
| `Text` | text.dfy | `strings.ToLower` on ASCII, `%d`, and the fixed-point verbs `%.2f` / `%0.1f` |
| `Seqs`, `Sorting` | seqs.dfy, sorting.dfy | append-if loops as order-preserving filters; `sort.Slice` as an insertion sort |
| `Levenshtein` | levenshtein.dfy | the edit distance of the fuzzy-search library, and the similarity thresholds |
| `EspnTables` | espn_tables.dfy | the lookup tables of the provider adapter |
| `EspnLeague` | espn_league.dfy | the provider adapter: standings, scores, player and team search, monitor report, roster, bye weeks |
| `MemoryRepository` | repository.dfy | the single-slot metadata store |
| `MetadataCache` | metadata_cache.dfy | the service's 24-hour metadata cache and the current week |
| `ServiceTeams` | service_teams.dfy | the service's own team-name table |
| `ScoreAggregation` | score_aggregation.dfy | trophies, matchup ordering and close games |
| `ReportText` | report_text.dfy | the text decisions of every report |
| `FantasyService` | fantasy_service.dfy | the service operations: week lookup, provider call, error prefixes |
| `Scheduler` | scheduler.dfy | the weekly job table, job registration and the send wrappers |
| `BotHandlers` | handlers.dfy | command dispatch and replies |
| `ScheduledReplies` | scheduled_replies.dfy | scheduled jobs against the chat commands for the same reports |

Every provider call is an input to the model. A call without the week is a
`Result` value. A call that needs the week is a function from the week to a
`Result`. The clock is an explicit `now` in nanoseconds, and the store is a
value passed in and returned. Scores are `real`.

Three behaviours of the code are easy to miss, and the model keeps them:

- **Fuzzy search takes the first acceptable candidate, not the best.** The
  lookup stores the winner's similarity as an integer percentage, at least the
  threshold as a percentage (70 for players, 60 for teams), but compares later
  candidates by a fractional similarity, at most 1, against it. No later
  candidate can beat the first one that passes.
  `EspnLeague.SearchScanFindsFirstMatch` proves this, and
  `EspnLeague.LaterExactMatchIgnored` shows an exact later match losing.
- **A zero-margin win goes to the away team.** The code credits home only when
  home scored strictly more. `ScoreAggregation.ZeroMarginGoesToAway` states it.
- **`Start` has no lifecycle guard.** A second start or an early stop is not
  reported, so the model has no scheduler state beyond the registrations.

## Model

| member | source | states |
|---|---|---|
| `Text.ToLower` | internal/api/espn/league.go:191-192 | Keeps the length, maps exactly the ASCII capitals 32 code points down, and leaves every other character as it is |
| `Text.ToLowerIdempotent` | internal/api/espn/league.go:191-192 | Lower-casing an already lower-cased name changes nothing |
| `Text.ParseNatToString` | internal/service/fantasy.go:57-58 | Reading back the decimal digits `%d` writes gives the number itself |
| `Text.IntToString` | internal/service/fantasy.go:57-58 | `%d` is non-empty, uses only digits and a sign, and starts with '-' exactly for negatives |
| `Text.RoundHalfEvenIsNearest` | internal/service/fantasy.go:59-60 | The rounding used by the fixed-point verbs is within one half, and a tie goes to the even neighbour |
| `Text.ScaledUnitsRoundsShifted` | internal/service/fantasy.go:59-60 | Scaling by ten once per decimal place and then rounding is rounding the magnitude times 10^places |
| `Text.UnitsSplit` | internal/service/fantasy.go:59-60 | The whole part and the fraction digits of a unit count together give back that count |
| `Text.ParseNatConcat` | internal/service/fantasy.go:59-60 | Two digit strings written one after the other read as the first shifted past the second plus the second |
| `Text.UnitsToDigitsReadsBack` | internal/service/fantasy.go:59-60 | Removing the decimal point from a rendered unit count leaves only digits, and they read back as the count |
| `Text.FixedPoint` | internal/service/fantasy.go:59-60 | `%.Nf` is non-empty and numeric, and it starts with '-' exactly for negative values |
| `Text.FixedPointIsNearest` | internal/service/fantasy.go:85-86 | `%.Nf` round trip: after the sign, the text has a point N digits from the end, and it reads back as the unit count nearest to the value |
| `Text.FixedIsNotWord` | internal/service/fantasy.go:144-147 | A rendered number never equals a word label such as "TBD" |
| `Seqs.FindFirst` | internal/api/espn/league.go:201-211 | The index found is the first element passing the test; absence means no element passes |
| `Seqs.Filter` | internal/api/espn/league.go:464-468 | Keeps exactly the elements on the chosen side of the test, in their original order (a subsequence) |
| `Seqs.FilterPartition` | internal/api/espn/league.go:464-468 | Splitting by the test into starters and bench loses and duplicates nothing |
| `Sorting.Insert` | internal/service/fantasy.go:356-360 | Insertion adds exactly one element to the multiset |
| `Sorting.InsertKeepsSorted` | internal/service/fantasy.go:356-360 | Under a strict weak order, inserting into a sorted sequence keeps it sorted |
| `Sorting.SortBy` | internal/service/fantasy.go:356-360 | The sort result is a permutation of its input |
| `Sorting.SortBySorted` | internal/service/fantasy.go:356-360 | Under a strict weak order, no element of the sort result is less than one before it |
| `Levenshtein.DistanceToSelf` | internal/api/espn/league.go:192 | A name is at distance zero from itself |
| `Levenshtein.DistanceAtMostLonger` | internal/api/espn/league.go:192-194 | The distance never exceeds the longer length, so the similarity is never negative |
| `Levenshtein.DistanceAtLeastLengthGap` | internal/api/espn/league.go:192 | The distance is at least the difference of the two lengths |
| `Levenshtein.DistanceZeroIffEqual` | internal/api/espn/league.go:192 | The distance is zero exactly when the two strings are equal |
| `Levenshtein.ZeroDistanceEqual` | internal/api/espn/league.go:192 | Distance zero forces equality |
| `Levenshtein.DistanceCell` | internal/api/espn/league.go:192 | A table cell is the cheapest of deletion, insertion and substitution or match |
| `Levenshtein.ComputeDistance` | internal/api/espn/league.go:192 | The row-by-row table computation returns the reference edit distance |
| `Levenshtein.NextRow` | internal/api/espn/league.go:192 | Each row of the table holds the reference distances of the corresponding prefixes |
| `Levenshtein.ThresholdAsProduct` | internal/api/espn/league.go:193-196 | For a positive longest length m, the test 1 - d/m > t is d < (1 - t) * m |
| `Levenshtein.PlayerThresholdInIntegers` | internal/api/espn/league.go:188-196 | The 0.7 player test holds exactly when m > 0 and 10d < 3m |
| `Levenshtein.TeamThresholdInIntegers` | internal/api/espn/league.go:396-404 | The 0.6 team test holds exactly when m > 0 and 5d < 2m |
| `Levenshtein.SameNameMatches` | internal/api/espn/league.go:190-196 | A non-empty name equal to the query up to case passes any threshold below 1 |
| `EspnTables.Lookup` | internal/api/espn/league.go:264-267 | A table lookup gives the entry for a mapped id, and "Unknown" exactly for an unmapped one |
| `EspnTables.PositionString` | internal/api/espn/league.go:260-268 | Exactly the ids 1-5 and 16 have a position; everything else is "Unknown" |
| `EspnTables.ProTeamString` | internal/api/espn/league.go:270-283 | Exactly the ids 1-30, 33 and 34 name a professional team, each with an abbreviation of at most three letters |
| `EspnTables.TeamName` | internal/api/espn/league.go:285-301 | Exactly the league team ids 1-6 have a name |
| `EspnTables.IsStartingLineup` | internal/api/espn/league.go:341-354 | A slot starts exactly when it is one of 0, 2, 4, 6, 16, 17 and 23; a missing key reads as false |
| `EspnTables.LineupSlotString` | internal/api/espn/league.go:490-513 | Exactly the slots 0, 2, 4, 6, 16, 17, 20, 21 and 23 have a name |
| `EspnTables.StartingSlotsAreNamedPositions` | internal/api/espn/league.go:341-354 | The starting-slot table agrees with the slot names: a slot starts exactly when its name is a position or FLEX, and Bench and IR are the named non-starters |
| `EspnLeague.GetLeagueMetadata` | internal/api/espn/league.go:23-47 | The snapshot fails exactly when the fetch fails, with the adapter's prefix; otherwise it carries the current matchup period and the fetch time |
| `EspnLeague.ToStanding` | internal/api/espn/league.go:60-74 | A team's standing line carries its id, name, abbreviation, overall record (wins, losses, ties, points for and against, win percentage) and playoff seed |
| `EspnLeague.StandingBefore` | internal/api/espn/league.go:76-81 | A higher win percentage comes first; on equal percentages the team with more points for comes first, and equal points for order neither first |
| `EspnLeague.StandingBeforeIsStrictWeakOrder` | internal/api/espn/league.go:76-81 | The standings comparator is a strict weak order |
| `EspnLeague.RankStandings` | internal/api/espn/league.go:76-85 | The standings are a permutation of the teams, by win percentage descending and then points for descending, with rank = position + 1 |
| `EspnLeague.GetStandings` | internal/api/espn/league.go:49-88 | A failed fetch gives the prefixed error; otherwise the result is the ranked standings of the teams' standing lines: one per team, a permutation of them, ordered by the comparator, with rank = position + 1 |
| `EspnLeague.RoundHalfAwayFromZero` | internal/api/espn/league.go:147 | `math.Round` is within one half, and a tie goes away from zero |
| `EspnLeague.RoundCents` | internal/api/espn/league.go:147 | The rounded score is a whole number of hundredths within half a hundredth of the input |
| `EspnLeague.ScoreAndProjected` | internal/api/espn/league.go:141-148 | The score is the live total unless that is zero, then the stored total; the projection is the live projection; both are rounded to cents |
| `EspnLeague.ToScoreRecord` | internal/api/espn/league.go:121-134 | A matchup is completed exactly when the winner is not "UNDECIDED", and it keeps both team ids |
| `EspnLeague.GetCurrentScores` | internal/api/espn/league.go:115-138 | A failed fetch gives the prefixed error; otherwise there is one score record per matchup, in order |
| `EspnLeague.SearchScan` | internal/api/espn/league.go:190-213 | The Go loop as written: a chosen candidate passes the threshold test; with none chosen the stored percentage is still -1 and, for a non-negative threshold, no candidate passes |
| `EspnLeague.SearchScanFindsFirstMatch` | internal/api/espn/league.go:190-213 | The Go loop, with its integer percentage, settles on the first candidate that passes the test, or on none when none passes |
| `EspnLeague.OneSubstitutionApart` | internal/api/espn/league.go:192 | One substituted letter is at distance one |
| `EspnLeague.NearNameMatches` | internal/api/espn/league.go:190-196 | A four-letter name one letter off the query passes the 0.7 test |
| `EspnLeague.LaterExactMatchIgnored` | internal/api/espn/league.go:196-197 | An exact match listed after an earlier passing candidate is not chosen |
| `EspnLeague.PointsFromStats` | internal/api/espn/league.go:244-258 | The points come from the first stat of the week with source 0 (actual) or 1 (projected); with none, the season total counts as projected |
| `EspnLeague.MatchPlayer` | internal/api/espn/league.go:184-213 | The player chosen is the first whose name passes the 0.7 test; no player is chosen when none passes |
| `EspnLeague.SlotOfPlayer` | internal/api/espn/league.go:200-222 | The slot is the lineup-slot name of the first roster entry, team by team, that holds the player, and "Unknown" when no entry holds it |
| `EspnLeague.SearchPlayers` | internal/api/espn/league.go:184-242 | Found exactly when a player matches; a found result carries that player's name, owner, tables and points; otherwise only the query is echoed |
| `EspnLeague.WhoHas` | internal/api/espn/league.go:162-182 | A failed roster fetch gives the prefixed error; otherwise the answer is the player search over the pool entries of every roster entry of every team, in team order |
| `EspnLeague.MonitoredPlayers` | internal/api/espn/league.go:322-331 | The monitored players are the starters with a watched injury status, each once and in roster order: a subsequence of the roster's players as many as the roster's monitored starters |
| `EspnLeague.TeamMonitor` | internal/api/espn/league.go:317-331 | The report carries the adapter's team name and the team's monitored starters, each once and in roster order: a subsequence of the roster's players as long as the list of its starters with a watched injury status |
| `EspnLeague.PlayersToMonitor` | internal/api/espn/league.go:317-336 | Teams keep their order, teams with no monitored player are dropped, and every team with one is kept |
| `EspnLeague.GetPlayersToMonitor` | internal/api/espn/league.go:303-339 | A failed roster fetch gives the prefixed error; otherwise the report is built from the fetched teams |
| `EspnLeague.ByeWeeks` | internal/api/espn/league.go:538-543 | Exactly the teams with a positive bye week are mapped; each maps to the bye week of its last listing with a positive bye week, so a later non-positive listing does not remove it |
| `EspnLeague.GetProSchedule` | internal/api/espn/league.go:522-546 | A failed fetch gives the prefixed error; otherwise the result is the bye-week map |
| `EspnLeague.ActualPoints` | internal/api/espn/league.go:437-447 | The actual points are those of the first source-0 stat of the week, and are absent exactly when there is none |
| `EspnLeague.PointsLabel` | internal/api/espn/league.go:431-452 | The label is IR (slot 21 or injury reserve), then BYE (bye week equals the week), then the actual points to two decimals, then TBD, in that precedence |
| `EspnLeague.ToRosterPlayer` | internal/api/espn/league.go:427-462 | A roster player carries the player's name, the name of its position (the sort key), the name of its lineup slot, its injury status, its starter flag, its points and its label |
| `EspnLeague.RosterPlayers` | internal/api/espn/league.go:427-469 | One roster player per entry, in roster order |
| `EspnLeague.PositionRank` | internal/api/espn/league.go:472-481 | The listed positions rank 1-7, and any other position ranks 0 as a missing map key does |
| `EspnLeague.StarterBeforeIsStrictWeakOrder` | internal/api/espn/league.go:471-482 | The starter comparator is a strict weak order |
| `EspnLeague.SortStarters` | internal/api/espn/league.go:471-482 | The sorted starters are a permutation of the starters, ordered by position rank |
| `EspnLeague.ArrangeRoster` | internal/api/espn/league.go:464-485 | The roster is a permutation of the players: all starters by position rank, then the bench in roster order |
| `EspnLeague.UnrankedStartersFirst` | internal/api/espn/league.go:472-481 | A starter whose position has no rank is listed before every ranked starter |
| `EspnLeague.MatchTeam` | internal/api/espn/league.go:398-408 | The team chosen is the first whose name passes the 0.6 test; no team is chosen when none passes |
| `EspnLeague.BuildTeamRoster` | internal/api/espn/league.go:414-487 | The roster carries the team's name and every roster entry exactly once: the starters first, ordered by position rank, then the bench in roster order |
| `EspnLeague.GetTeamRoster` | internal/api/espn/league.go:360-488 | The failures come in Go's order (rosters, scoreboard, "team not found", pro schedule with its prefix twice); it succeeds exactly when none occurs, and then it holds the first matching team's arranged roster |
| `MemoryRepository.NewRepository` | internal/repository/memory/repository.go:14-16 | A new store holds nothing |
| `MemoryRepository.SaveMetadata` | internal/repository/memory/repository.go:18-22 | A read after a save returns the saved snapshot |
| `MemoryRepository.Apply` | internal/repository/memory/repository.go:24-28 | A read leaves the store unchanged |
| `MemoryRepository.LastSaved` | internal/repository/memory/repository.go:18-28 | Reference: the snapshot of the last save, absent exactly when no save occurs |
| `MemoryRepository.ReadReturnsLastSave` | internal/repository/memory/repository.go:18-28 | After any sequence of saves and reads, a read returns the last save, or nothing before any save |
| `MetadataCache.GetLeagueMetadata` | internal/service/fantasy.go:35-46 | The provider is asked exactly when the store is empty or the snapshot is over 24 hours old; a cached answer leaves the store as it was; a failed fetch leaves it as it was and fails with the adapter's error; a successful fetch is saved and returned |
| `MetadataCache.GetCurrentWeek` | internal/service/fantasy.go:25-33 | The current week is the snapshot's week, or the snapshot's failure |
| `MetadataCache.NoRefetchWithinADay` | internal/service/fantasy.go:36-37 | While every call comes at most a day after the held snapshot, no call reaches the provider and the store does not change |
| `MetadataCache.TwoCallsWithinADayFetchOnce` | internal/service/fantasy.go:36-45 | Two calls within a day from an empty store fetch once |
| `MetadataCache.SecondCallAfterADayFetchesAgain` | internal/service/fantasy.go:36-45 | A call more than a day after the first fetch fetches again |
| `ServiceTeams.ReportTeamName` | internal/service/fantasy.go:97-112 | The service names exactly the team ids 1-6, and every other id is "Unknown" |
| `ServiceTeams.TablesDisagreeOnlyOnTeamThree` | internal/service/fantasy.go:97-104 | The service's table and the adapter's table agree on every id except 3 |
| `ScoreAggregation.Margin` | internal/service/fantasy.go:322 | The margin is the absolute score difference |
| `ScoreAggregation.WinnerName` | internal/service/fantasy.go:325-337 | Home is credited when it scored strictly more than away; otherwise away is credited |
| `ScoreAggregation.ZeroMarginGoesToAway` | internal/service/fantasy.go:325-337 | A drawn record's zero margin is credited to the away team |
| `ScoreAggregation.Step` | internal/service/fantasy.go:290-339 | One loop step never lowers the high score or the biggest win and never raises the low score or the closest win; afterwards they bound the record's scores and margin, and each holder is the previous one or a side (or the margin) of this record |
| `ScoreAggregation.Sides` | internal/service/fantasy.go:290-319 | The sides are every home and away score, in scan order, home before away |
| `ScoreAggregation.SideOfRecord` | internal/service/fantasy.go:290-319 | Side k belongs to record k / 2 |
| `ScoreAggregation.Margins` | internal/service/fantasy.go:321-338 | One margin per record, the absolute score difference, credited to home when home scored strictly more and to away otherwise, a tie included |
| `ScoreAggregation.BestIsFirstOptimum` | internal/service/fantasy.go:301-338 | When every item beats the sentinel, a running-extreme scan keeps the first item that nothing beats |
| `ScoreAggregation.BestAppend` | internal/service/fantasy.go:302-309 | A new item takes over the trophy exactly when it strictly beats the holder |
| `ScoreAggregation.Scan` | internal/service/fantasy.go:290-339 | The loop's high and low scores are the reference scans over all sides, and its biggest and closest wins the reference scans over all margins |
| `ScoreAggregation.StepExtendsSides` | internal/service/fantasy.go:301-319 | One loop step extends the reference high (or low) scan by the record's home side and then its away side |
| `ScoreAggregation.StepExtendsMargins` | internal/service/fantasy.go:321-338 | One loop step extends the reference biggest and closest scans by the record's margin |
| `ScoreAggregation.ProcessScores` | internal/service/fantasy.go:277-349 | The matchups align position by position with the records, with names from the service table; there are exactly four trophies (high, low, biggest, closest), each the reference scan |
| `ScoreAggregation.NoScoresKeepSentinels` | internal/service/fantasy.go:281-288 | With no records, every trophy keeps its sentinel (-Max, +Max, -Max, +Max) and names no team |
| `ScoreAggregation.ScoreTrophiesAreExtremes` | internal/service/fantasy.go:301-319 | On finite records, the high and low trophies are the first highest and the first lowest side |
| `ScoreAggregation.WinTrophiesAreExtremes` | internal/service/fantasy.go:321-338 | On finite records, the biggest and closest wins are the first largest and the first smallest margin |
| `ScoreAggregation.TwoMatchupExample` | internal/service/fantasy.go:277-349 | The two-record example gives high (team 3, 30), low (team 1, 10), biggest win (team 2, 10) and closest win (team 3, 5) |
| `ScoreAggregation.HigherTotalIsStrictWeakOrder` | internal/service/fantasy.go:356-360 | The total-score comparator is a strict weak order |
| `ScoreAggregation.OrderByTotal` | internal/service/fantasy.go:356-360 | The listed matchups are a permutation of the report's, by combined score descending |
| `ScoreAggregation.SmallerMarginIsStrictWeakOrder` | internal/service/fantasy.go:414-416 | The margin comparator is a strict weak order |
| `ScoreAggregation.CloseRecords` | internal/service/fantasy.go:401-412 | The close games are exactly the records within 16 points, each carrying its margin, each once and in input order: a subsequence of all records' games, as long as the list of close records |
| `ScoreAggregation.FindCloseGames` | internal/service/fantasy.go:398-419 | A permutation of the close records, so every record within 16 points appears as often as it is close, and no other; sorted by margin ascending |
| `ScoreAggregation.CloseBoundary` | internal/service/fantasy.go:403 | A margin of exactly 16 is close, and 16.01 is not |
| `ReportText.StandingsText` | internal/service/fantasy.go:54-63 | The standings header leads, is alone for an empty league, and every ranked team's block appears in the text |
| `ReportText.ScoreBlock` | internal/service/fantasy.go:84-91 | A current-scores block is the versus line, the current and projected lines, "(Final)" exactly for a completed game, and a blank line |
| `ReportText.MatchupBlock` | internal/service/fantasy.go:458-469 | A preview block has a current line exactly when a side has scored, with " (Final)" after it exactly for a completed game |
| `ReportText.ScorelessFinalShowsNoFinal` | internal/service/fantasy.go:461-467 | A completed game in which no side scored shows no "(Final)" |
| `ReportText.CurrentScoresText` | internal/service/fantasy.go:77-95 | The week's header leads, is alone when there are no records, and every record's score block appears in the text |
| `ReportText.MatchupsText` | internal/service/fantasy.go:450-470 | The week's header leads, is alone when there are no records, and every record's preview block appears in the text |
| `ReportText.SlotLabel` | internal/service/fantasy.go:135-139 | "Bench" and "IR" are shown as they are, and every other slot reads "Starting" |
| `ReportText.PointsText` | internal/service/fantasy.go:144-147 | The points read "TBD" exactly when they are not positive; otherwise `%.2f` |
| `ReportText.OwnerParts` | internal/service/fantasy.go:133-142 | A player with team id 0 is a "Free Agent"; any other shows the line "*team*" and then its slot label |
| `ReportText.PointsParts` | internal/service/fantasy.go:149-152 | " (Projected)" appears exactly for projected points |
| `ReportText.WhoHasParts` | internal/service/fantasy.go:120-154 | A not-found result gives only the "No player found matching" message; a found one gives, in order, the header with name, position and pro team, the separator, the owner lines, the points pieces and the "% Rostered" line |
| `ReportText.WhoHasText` | internal/service/fantasy.go:120-157 | The reply is the not-found message alone, or contains every piece of the who-has reply |
| `ReportText.MonitorBlock` | internal/service/fantasy.go:178-184 | A team's block starts with its `*name:*` heading, holds the `  • position name - status` line of every player on the team, and ends with a newline |
| `ReportText.MonitorText` | internal/service/fantasy.go:170-186 | The week's "Players to Monitor" header always leads; the "No players to monitor" placeholder replaces the listing exactly when no team has a player to watch; otherwise every team's block, and through it every watched player's line, appears in the text |
| `ReportText.BlocksCarryLines` | internal/service/fantasy.go:178-184 | A text holding every team's block holds every watched player's line |
| `ReportText.PointsWithUnit` | internal/service/fantasy.go:221-224 | " pts" follows the label unless the label is IR or BYE |
| `ReportText.InjurySuffix` | internal/service/fantasy.go:226-236 | There is no suffix for an empty, ACTIVE or INJURY_RESERVE status; QUESTIONABLE, DOUBTFUL and OUT show Q, D and O; any other status shows " ()" |
| `ReportText.RosterSection` | internal/service/fantasy.go:218-272 | A section lists exactly the lines of the players on its side (starters or bench) |
| `ReportText.SectionsCoverRoster` | internal/service/fantasy.go:218-272 | The two sections together have one line per player |
| `ReportText.TeamRosterText` | internal/service/fantasy.go:215-272 | The title and the starting-lineup heading lead, and every player of the roster has its line in the text |
| `ReportText.FinalScoreText` | internal/service/fantasy.go:351-381 | The text is the final-scores header, the matchup lines in an order that is a permutation of the report's matchups with non-increasing combined score, the trophies header and the trophy lines; so every matchup and every trophy has its line in it |
| `ReportText.CloseGamesText` | internal/service/fantasy.go:421-437 | The "Monday Night Watch List" header always leads; the "No close games this week" placeholder replaces the listing exactly when there are no close games; otherwise every game's `home score - score away (Margin: m)` line appears in the text |
| `FantasyService.Wrap` | internal/service/fantasy.go:72-75 | A failure gains the operation's prefix, and a success passes through unchanged |
| `FantasyService.ErrorPrefix` | internal/service/fantasy.go:66-212 | Every service prefix starts with "error " and ends with ": "; the three reports built from the scoreboard share "error fetching current scores: " and no other report uses it; the final-score report's prefix is "error fetching matchups: " |
| `FantasyService.IsReportText` | internal/service/fantasy.go:48-470 | The reference for a successful reply: each operation's text is its formatter applied to the provider's converted answer for the week (standings, current scores, matchups, final scores, close games, monitor, who-has, team roster) |
| `FantasyService.FromScores` | internal/service/fantasy.go:66-95 | A scoreboard report fails exactly when the scoreboard fetch fails, with the adapter's error; on success its text is the reference text of the operation: current scores, matchups, final scores or close games of the fetched records |
| `FantasyService.FromRosters` | internal/service/fantasy.go:114-187 | A roster-based report fails exactly when the roster fetch fails, with the adapter's error; on success its text is the reference text: the monitor report of the fetched teams, or the who-has text of the player search |
| `FantasyService.FromTeamRoster` | internal/service/fantasy.go:204-272 | The roster report fails exactly when the adapter's roster lookup fails, with its error; otherwise it is the text of that roster |
| `FantasyService.Produce` | internal/service/fantasy.go:66-212 | A week-bound operation fails exactly when the provider call it needs fails, with the adapter's error unprefixed; on success its text is the reference text of the operation |
| `FantasyService.WeeklyReport` | internal/service/fantasy.go:66-212 | A weekly report fails exactly when the provider call it needs fails, with the operation's prefix before the adapter's error; on success its text is the reference text of the operation |
| `FantasyService.Serve` | internal/service/fantasy.go:48-95 | Standings bypass the cache and leave the store alone, and their reply is the text of the ranked standings or the doubly prefixed error; every other operation fails with "error fetching current week" when the week cannot be found, and otherwise answers for the cached or fetched week |
| `FantasyService.SecondRequestUsesCachedWeek` | internal/service/fantasy.go:36-45 | After a successful refresh, a second request within a day leaves the store unchanged and answers for the fetched week, whatever the provider would now say about the metadata |
| `Scheduler.JobsFollowTimetable` | internal/scheduler/scheduler.go:39-103 | The seven jobs fire exactly the weekly timetable: close scores Mon 17:30; scoreboard Mon, Tue and Fri 07:30 and Sun 15:00 and 19:00; trophies Tue 07:30; standings Wed 07:30; matchups Thu 18:30; monitor Sun 07:30 |
| `Scheduler.TuesdayMorningAndSaturday` | internal/scheduler/scheduler.go:52-67 | Tuesday 07:30 fires both the scoreboard and the trophies, and nothing fires on Saturday |
| `Scheduler.RegisterAll` | internal/scheduler/scheduler.go:43-106 | Registration stops at the first failure: the jobs before it are registered, the scheduler is not started, and the error names the job; with no failure, every job is registered and started |
| `Scheduler.Start` | internal/scheduler/scheduler.go:39-107 | The scheduler starts exactly when all seven registrations succeed |
| `Scheduler.Fire` | internal/scheduler/scheduler.go:113-165 | A job sends exactly the service's text on success and nothing on failure |
| `ScheduledReplies.ScheduledMatchesOnDemand` | internal/scheduler/scheduler.go:113-165 | A job sends the same text as the matching chat command when the service succeeds |
| `BotHandlers.Dispatch` | internal/bot/handlers.go:25-47 | Each command routes as the switch does: "start" and "help" give fixed texts; "whohas" and "team" give their usage text exactly when the arguments are empty and otherwise look up the arguments; the six other service commands call their operation with the handler's error prefix; any other command gives the "Unknown command" text |
| `BotHandlers.HandleCommand` | internal/bot/handlers.go:19-130 | Every reply is Markdown; a fixed route replies with its text; a service call replies with the service's text on success and with the handler's prefix and the error on failure |
| `BotHandlers.CaseInsensitive` | internal/bot/handlers.go:21-25 | A command is handled the same whatever its letter case |
| `BotHandlers.FixedRepliesIgnoreService` | internal/bot/handlers.go:26-29 | A fixed reply does not depend on the service |

## Left out

- The HTTP client is not part of this model. This covers endpoints, query
  parameters, cookies, headers, the filter JSON and response decoding. Each
  provider answer is an input: a record or an error string.
- The impossible `json.Marshal` failure of the scoreboard filter is left out. The
  filter is a constant map.
- The pass-through fantasy API wrapper is left out because it has no logic. The
  service calls the adapter's functions directly. The wrapper lacks
  `GetTeamRoster` in the Go code, and the model ignores that.
- Telegram transport, the program entry point, the health endpoint and the
  environment configuration are I/O and are left out.
- The repository's read/write mutex is left out. The model is sequential, so
  concurrent refreshes and their race are not modelled.
- gocron's timers, the time-zone database, `Stop`/`Shutdown` and the scheduler
  constructor are left out. The job table is data, and its times are
  wall-clock times in the `America/Chicago` zone.
- Send failures are left out. The Go send wrappers discard the result of
  `sendMessage`, so the model's wrappers only list what they hand over.
- Logging (`slog`) is left out.
- Go's `float64` is modelled as exact `real`. Exact-boundary similarity values
  and the IEEE rounding of `math.Round(x*100)/100` and of the fixed-point verbs
  are not reproduced. `Text.FixedPoint` rounds the exact decimal value half to
  even, and `EspnLeague.RoundCents` rounds half away from zero.
- `float64(0)/0` is NaN, and NaN fails every comparison, so two empty names
  never match. The model states the threshold test with the longest length
  m > 0, which gives the same answer.
- The fuzzy library counts runes while `len` counts bytes. The model treats
  names as sequences of characters and lower-cases only ASCII letters.
- The provider's score record comes in two shapes across the Go files
  (`Matchup` and `CurrentScore`). The model uses one record: both team ids,
  both scores, both projections and the completed flag.
- `WhoHasResult` in the models file lacks the lineup slot that the adapter
  sets. The model includes it.
- `sort.Slice` is not stable. The model sorts with a stable insertion sort.
- Sorting contracts: the sort contracts promise a permutation and the order
  relation, which is all that `sort.Slice` guarantees. The order among
  equivalent elements is not specified.
- The emoji and Markdown decoration of each report's fixed lines is written
  out, but no contract speaks about it.
- `ScoreAggregation.ScoreTrophiesAreExtremes` and
  `ScoreAggregation.WinTrophiesAreExtremes` are stated for scores strictly
  inside the `float64` range. An infinite score would not beat the sentinels.

=== FILE: espn_league.dfy ===
/** The provider adapter's derivations (internal/api/espn/league.go): each
    operation takes the decoded response, or the client's failure, and
    builds the league records the service reports on. */
module EspnLeague {
  import opened Wrappers
  import opened Text
  import opened Seqs
  import opened Sorting
  import opened Models
  import opened EspnTables
  import opened Levenshtein

  // ---- League metadata ----

  /** The metadata snapshot, stamped with the time it was fetched. */
  function GetLeagueMetadata(response: Result<LeagueResponse>, now: int): (r: Result<LeagueMetadata>)
    ensures r.Ok? <==> response.Ok?
    ensures response.Err? ==> r.error == "fetching league metadata: " + response.error
    ensures r.Ok? ==> r.value.lastUpdated == now
    ensures r.Ok? ==> r.value.currentWeek == response.value.status.currentMatchupPeriod
  {
    match response
    case Err(e) => Err("fetching league metadata: " + e)
    case Ok(league) =>
      Ok(LeagueMetadata(
        league.id, league.settingsName, league.status.currentMatchupPeriod, league.scoringPeriodId,
        league.seasonId, league.status.firstScoringPeriod, league.status.finalScoringPeriod,
        league.status.isActive, now))
  }

  // ---- Standings ----

  /** A team's standing line carries its overall record unchanged. */
  function ToStanding(team: Team): (r: TeamStanding)
    ensures r.teamId == team.id && r.teamName == team.name && r.abbreviation == team.abbreviation
    ensures r.wins == team.record.wins && r.losses == team.record.losses && r.ties == team.record.ties
    ensures r.pointsFor == team.record.pointsFor && r.pointsAgainst == team.record.pointsAgainst
    ensures r.winPercentage == team.record.percentage && r.playoffSeed == team.playoffSeed
  {
    TeamStanding(
      team.id, team.name, team.abbreviation,
      team.record.wins, team.record.losses, team.record.ties,
      team.record.pointsFor, team.record.pointsAgainst, team.record.percentage,
      team.playoffSeed)
  }

  /** The standings comparator: higher win percentage first, then more points for. */
  function StandingBefore(a: TeamStanding, b: TeamStanding): (r: bool)
    ensures a.winPercentage > b.winPercentage ==> r
    ensures a.winPercentage < b.winPercentage ==> !r
    ensures a.winPercentage == b.winPercentage ==> (r <==> a.pointsFor > b.pointsFor)
  {
    if a.winPercentage != b.winPercentage then a.winPercentage > b.winPercentage
    else a.pointsFor > b.pointsFor
  }

  lemma StandingBeforeIsStrictWeakOrder()
    ensures StrictWeakOrder(StandingBefore)
  {
  }

  function StandingsOf(ranked: seq<RankedStanding>): (s: seq<TeamStanding>)
    ensures |s| == |ranked| && forall i :: 0 <= i < |s| ==> s[i] == ranked[i].standing
  {
    seq(|ranked|, i requires 0 <= i < |ranked| => ranked[i].standing)
  }

  /** Sorts the standings and numbers them from 1. */
  function RankStandings(standings: seq<TeamStanding>): (r: seq<RankedStanding>)
    ensures |r| == |standings|
    ensures forall i :: 0 <= i < |r| ==> r[i].rank == i + 1
    ensures multiset(StandingsOf(r)) == multiset(standings)
    ensures forall i, j :: 0 <= i < j < |r| ==>
      || r[i].standing.winPercentage > r[j].standing.winPercentage
      || (r[i].standing.winPercentage == r[j].standing.winPercentage
          && r[i].standing.pointsFor >= r[j].standing.pointsFor)
  {
    var sorted := SortBy(standings, StandingBefore);
    StandingBeforeIsStrictWeakOrder();
    SortBySorted(standings, StandingBefore);
    var r := seq(|sorted|, i requires 0 <= i < |sorted| => RankedStanding(i + 1, sorted[i]));
    assert StandingsOf(r) == sorted;
    r
  }

  function GetStandings(response: Result<LeagueResponse>): (r: Result<seq<RankedStanding>>)
    ensures response.Err? ==> r == Err("fetching standings: " + response.error)
    ensures response.Ok? ==> r.Ok? && |r.value| == |response.value.teams|
    ensures response.Ok? ==> r == Ok(RankStandings(Map(response.value.teams, ToStanding)))
    ensures response.Ok? ==> multiset(StandingsOf(r.value)) == multiset(Map(response.value.teams, ToStanding))
  {
    match response
    case Err(e) => Err("fetching standings: " + e)
    case Ok(league) => Ok(RankStandings(Map(league.teams, ToStanding)))
  }

  // ---- Scores ----

  /** Go's `math.Round`: nearest integer, halves away from zero. */
  function RoundHalfAwayFromZero(x: real): (r: int)
    ensures x - 0.5 <= r as real <= x + 0.5
    ensures r as real == x + 0.5 ==> x >= 0.0
    ensures r as real == x - 0.5 ==> x < 0.0
  {
    if x >= 0.0 then (x + 0.5).Floor else -((-x + 0.5).Floor)
  }

  /** `math.Round(x*100) / 100`: a whole number of hundredths within half a
      hundredth of `x`. */
  function RoundCents(x: real): (r: real)
    ensures -0.005 <= r - x <= 0.005
    ensures (r * 100.0).Floor as real == r * 100.0
  {
    var cents := RoundHalfAwayFromZero(x * 100.0);
    assert (cents as real / 100.0) * 100.0 == cents as real;
    cents as real / 100.0
  }

  /** A side's score falls back from the live total to the stored total only
      when the live total is exactly zero; the projection is always live. */
  function ScoreAndProjected(side: TeamScore): (r: (real, real))
    ensures side.totalPointsLive != 0.0 ==> r.0 == RoundCents(side.totalPointsLive)
    ensures side.totalPointsLive == 0.0 ==> r.0 == RoundCents(side.totalPoints)
    ensures r.1 == RoundCents(side.totalProjectedPointsLive)
  {
    var score := if side.totalPointsLive == 0.0 then side.totalPoints else side.totalPointsLive;
    (RoundCents(score), RoundCents(side.totalProjectedPointsLive))
  }

  const Undecided := "UNDECIDED"

  function ToScoreRecord(m: MatchupScore): (r: ScoreRecord)
    ensures r.isCompleted <==> m.winner != Undecided
    ensures r.homeTeamId == m.home.teamId && r.awayTeamId == m.away.teamId
    ensures (r.homeScore, r.homeProjected) == ScoreAndProjected(m.home)
    ensures (r.awayScore, r.awayProjected) == ScoreAndProjected(m.away)
  {
    var (homeScore, homeProjected) := ScoreAndProjected(m.home);
    var (awayScore, awayProjected) := ScoreAndProjected(m.away);
    ScoreRecord(m.id, m.home.teamId, m.away.teamId, homeScore, awayScore, homeProjected, awayProjected,
                m.winner != Undecided)
  }

  function GetCurrentScores(response: Result<seq<MatchupScore>>): (r: Result<seq<ScoreRecord>>)
    ensures response.Err? ==> r == Err("fetching current scores: " + response.error)
    ensures response.Ok? ==> r.Ok? && |r.value| == |response.value|
    ensures response.Ok? ==> forall i :: 0 <= i < |r.value| ==> r.value[i] == ToScoreRecord(response.value[i])
  {
    match response
    case Err(e) => Err("fetching current scores: " + e)
    case Ok(schedule) => Ok(Map(schedule, ToScoreRecord))
  }

  // ---- Fuzzy lookup ----

  const PlayerThreshold := 0.7
  const TeamThreshold := 0.6

  /** The loop state of the Go lookups: the chosen candidate and `bestScore`,
      an integer percentage that starts at -1. */
  datatype SearchState = SearchState(best: Option<nat>, bestScore: int)

  /** The Go lookup loop over candidate names, as written: a candidate is
      taken when it passes the threshold and either nothing is taken yet or
      its fractional similarity beats the stored integer percentage. */
  function SearchScan(query: string, names: seq<string>, threshold: real): (r: SearchState)
    ensures r.best.Some? ==> r.best.value < |names| && Matches(query, names[r.best.value], threshold)
    ensures r.best.None? ==> r.bestScore == -1
    ensures r.best.None? && threshold >= 0.0 ==> forall j :: 0 <= j < |names| ==> !Matches(query, names[j], threshold)
  {
    if |names| == 0 then SearchState(None, -1)
    else
      var st := SearchScan(query, names[..|names| - 1], threshold);
      var name := names[|names| - 1];
      var d := Distance(ToLower(query), ToLower(name));
      var m := Max(|query|, |name|);
      if ExceedsThreshold(d, m, threshold)
         && (st.bestScore == -1 || 1.0 - (d as real) / (m as real) > st.bestScore as real)
      then SearchState(Some(|names| - 1), ((1.0 - (d as real) / (m as real)) * 100.0).Floor)
      else st
  }

  lemma SimilarityAtMostOne(d: nat, m: nat)
    requires m > 0
    ensures 1.0 - (d as real) / (m as real) <= 1.0
  {
  }

  /** Because the stored percentage is at least 1 once a candidate is taken
      and a similarity is at most 1, no later candidate ever replaces it:
      the lookup returns the FIRST name passing the threshold, not the most
      similar one. */
  lemma {:induction false} SearchScanFindsFirstMatch(query: string, names: seq<string>, threshold: real)
    requires threshold >= 0.01
    ensures var st := SearchScan(query, names, threshold);
      && (st.best.None? <==> st.bestScore == -1)
      && (st.best.Some? ==> st.bestScore >= 1)
      && (st.best.Some? ==> st.best.value < |names| && Matches(query, names[st.best.value], threshold))
      && (st.best.Some? ==> forall j :: 0 <= j < st.best.value ==> !Matches(query, names[j], threshold))
      && (st.best.None? ==> forall j :: 0 <= j < |names| ==> !Matches(query, names[j], threshold))
  {
    if |names| > 0 {
      var init := names[..|names| - 1];
      SearchScanFindsFirstMatch(query, init, threshold);
      var name := names[|names| - 1];
      var d := Distance(ToLower(query), ToLower(name));
      var m := Max(|query|, |name|);
      if m > 0 {
        SimilarityAtMostOne(d, m);
      }
      assert forall j :: 0 <= j < |init| ==> names[j] == init[j];
    }
  }

  lemma OneSubstitutionApart()
    ensures Distance("abcd", "abce") == 1
  {
    DistanceZeroIffEqual("abcd", "abce");
    DistanceToSelf("abc");
    assert "abcd"[..3] == "abc" && "abce"[..3] == "abc";
  }

  lemma NearNameMatches()
    ensures Matches("abcd", "abce", PlayerThreshold)
  {
    OneSubstitutionApart();
    assert ToLower("abcd") == "abcd";
    assert ToLower("abce") == "abce";
    PlayerThresholdInIntegers(1, 4);
  }

  /** An exact match listed after an earlier passing candidate is ignored. */
  lemma LaterExactMatchIgnored(query: string, first: string)
    requires |query| > 0
    requires Matches(query, first, PlayerThreshold)
    ensures SearchScan(query, [first, query], PlayerThreshold).best == Some(0)
    ensures Matches(query, query, PlayerThreshold)
  {
    SameNameMatches(query, query, PlayerThreshold);
    SearchScanFindsFirstMatch(query, [first, query], PlayerThreshold);
  }

  // ---- Player points ----

  /** A stat of `week` from the actual (0) or projected (1) source. */
  predicate IsScoringStat(s: Stat, week: int) {
    s.scoringPeriodId == week && (s.statSourceId == 0 || s.statSourceId == 1)
  }

  /** `stats[k]` is the first scoring stat of `week`. */
  predicate FirstScoringStat(stats: seq<Stat>, k: nat, week: int)
    requires k < |stats|
  {
    IsScoringStat(stats[k], week) && forall j :: 0 <= j < k ==> !IsScoringStat(stats[j], week)
  }

  /** The first scoring stat of the week gives the points, projected when
      its source is 1; without one the season total counts as projected. */
  function PointsFromStats(stats: seq<Stat>, week: int, fallback: real): (r: (real, bool))
    ensures forall k :: 0 <= k < |stats| && FirstScoringStat(stats, k, week) ==>
      r == (stats[k].appliedTotal, stats[k].statSourceId == 1)
    ensures (forall j :: 0 <= j < |stats| ==> !IsScoringStat(stats[j], week)) ==> r == (fallback, true)
  {
    if |stats| == 0 then (fallback, true)
    else
      var s := stats[0];
      if s.scoringPeriodId == week && s.statSourceId == 0 then (s.appliedTotal, false)
      else if s.scoringPeriodId == week && s.statSourceId == 1 then (s.appliedTotal, true)
      else
        var r := PointsFromStats(stats[1..], week, fallback);
        assert forall k :: 1 <= k < |stats| ==> stats[k] == stats[1..][k - 1];
        r
  }

  function PlayerPoints(entry: PlayerPoolEntry, week: int): (real, bool) {
    PointsFromStats(entry.player.stats, week, entry.appliedStatTotal)
  }

  // ---- Who has ----

  function PlayerNames(players: seq<PlayerPoolEntry>): (names: seq<string>)
    ensures |names| == |players| && forall i :: 0 <= i < |names| ==> names[i] == players[i].player.fullName
  {
    seq(|players|, i requires 0 <= i < |players| => players[i].player.fullName)
  }

  /** Index of the player the lookup settles on. */
  function MatchPlayer(players: seq<PlayerPoolEntry>, query: string): (r: Option<nat>)
    ensures r.Some? ==> r.value < |players| && Matches(query, players[r.value].player.fullName, PlayerThreshold)
    ensures r.Some? ==> forall j :: 0 <= j < r.value ==> !Matches(query, players[j].player.fullName, PlayerThreshold)
    ensures r.None? ==> forall j :: 0 <= j < |players| ==> !Matches(query, players[j].player.fullName, PlayerThreshold)
  {
    SearchScanFindsFirstMatch(query, PlayerNames(players), PlayerThreshold);
    SearchScan(query, PlayerNames(players), PlayerThreshold).best
  }

  /** Every roster entry of every team, team by team. */
  function AllEntries(teams: seq<Team>): seq<RosterEntry> {
    Flatten(seq(|teams|, i requires 0 <= i < |teams| => teams[i].roster))
  }

  /** The lineup slot of the first roster entry holding player `id`. */
  function SlotOfPlayer(teams: seq<Team>, id: int): (r: string)
    ensures r != Unknown ==> exists e :: e in AllEntries(teams) && e.poolEntry.id == id
    ensures forall k :: (0 <= k < |AllEntries(teams)| && AllEntries(teams)[k].poolEntry.id == id
                        && (forall j :: 0 <= j < k ==> AllEntries(teams)[j].poolEntry.id != id))
                        ==> r == LineupSlotString(AllEntries(teams)[k].lineupSlotId)
    ensures (forall k :: 0 <= k < |AllEntries(teams)| ==> AllEntries(teams)[k].poolEntry.id != id) ==> r == Unknown
  {
    var entries := AllEntries(teams);
    match FindFirst(entries, (e: RosterEntry) => e.poolEntry.id == id)
    case None => Unknown
    case Some(k) => LineupSlotString(entries[k].lineupSlotId)
  }

  function SearchPlayers(teams: seq<Team>, players: seq<PlayerPoolEntry>, query: string, week: int): (r: WhoHasResult)
    ensures r.found <==> MatchPlayer(players, query).Some?
    ensures !r.found ==> r == WhoHasResult(query, "", 0, false, 0.0, "", "", 0.0, false, "")
    ensures r.found ==>
      var p := players[MatchPlayer(players, query).value];
      && r.playerName == p.player.fullName
      && r.teamId == p.onTeamId
      && r.teamName == TeamName(p.onTeamId)
      && r.percentOwned == p.player.percentOwned
      && r.position == PositionString(p.player.defaultPositionId)
      && r.proTeam == ProTeamString(p.player.proTeamId)
      && (r.points, r.isProjected) == PlayerPoints(p, week)
      && r.lineupSlot == SlotOfPlayer(teams, p.id)
  {
    match MatchPlayer(players, query)
    case None => WhoHasResult(query, "", 0, false, 0.0, "", "", 0.0, false, "")
    case Some(k) =>
      var p := players[k];
      var (points, projected) := PlayerPoints(p, week);
      WhoHasResult(
        p.player.fullName, TeamName(p.onTeamId), p.onTeamId, true, p.player.percentOwned,
        PositionString(p.player.defaultPositionId), ProTeamString(p.player.proTeamId),
        points, projected, SlotOfPlayer(teams, p.id))
  }

  function PoolEntryOf(e: RosterEntry): PlayerPoolEntry {
    e.poolEntry
  }

  function WhoHas(response: Result<LeagueResponse>, playerName: string, week: int): (r: Result<WhoHasResult>)
    ensures response.Err? ==> r == Err("fetching league rosters: " + response.error)
    ensures response.Ok? ==> r.Ok?
    ensures response.Ok? ==>
      r == Ok(SearchPlayers(response.value.teams, Map(AllEntries(response.value.teams), PoolEntryOf), playerName, week))
  {
    match response
    case Err(e) => Err("fetching league rosters: " + e)
    case Ok(league) =>
      Ok(SearchPlayers(league.teams, Map(AllEntries(league.teams), PoolEntryOf), playerName, week))
  }

  // ---- Players to monitor ----

  /** A starter whose injury status is worth watching. */
  predicate ShouldMonitor(e: RosterEntry) {
    IsStartingLineup(e.lineupSlotId) && IsPlayerToMonitor(e.poolEntry.player.injuryStatus)
  }

  function ToMonitored(e: RosterEntry): PlayerToMonitor {
    PlayerToMonitor(e.poolEntry.player.fullName, PositionString(e.poolEntry.player.defaultPositionId),
                    e.poolEntry.player.injuryStatus)
  }

  /** The monitored starters of a roster, each once, in roster order. */
  function MonitoredPlayers(roster: seq<RosterEntry>): (r: seq<PlayerToMonitor>)
    ensures forall p :: p in r ==> IsPlayerToMonitor(p.injuryStatus)
    ensures forall p :: p in r ==> exists e :: e in roster && ShouldMonitor(e) && ToMonitored(e) == p
    ensures forall e :: e in roster && ShouldMonitor(e) ==> ToMonitored(e) in r
    ensures IsSubsequence(r, Map(roster, ToMonitored))
    ensures |r| == |Filter(roster, ShouldMonitor, true)|
  {
    var kept := Filter(roster, ShouldMonitor, true);
    var players := Map(kept, ToMonitored);
    MapSubsequence(kept, roster, ToMonitored);
    MapFilterMembers(roster, ShouldMonitor, ToMonitored);
    players
  }

  /** A team's report: the adapter's name for it and its monitored starters. */
  function TeamMonitor(team: Team): (r: TeamMonitorReport)
    ensures r.teamName == TeamName(team.id)
    ensures forall p :: p in r.players ==> IsPlayerToMonitor(p.injuryStatus)
    ensures forall p :: p in r.players ==> exists e :: e in team.roster && ShouldMonitor(e) && ToMonitored(e) == p
    ensures forall e :: e in team.roster && ShouldMonitor(e) ==> ToMonitored(e) in r.players
    ensures IsSubsequence(r.players, Map(team.roster, ToMonitored))
    ensures |r.players| == |Filter(team.roster, ShouldMonitor, true)|
  {
    TeamMonitorReport(TeamName(team.id), MonitoredPlayers(team.roster))
  }

  predicate HasPlayers(t: TeamMonitorReport) {
    |t.players| > 0
  }

  /** Teams in roster order, each with its monitored starters; teams with
      none are left out. */
  function PlayersToMonitor(teams: seq<Team>): (r: seq<TeamMonitorReport>)
    ensures forall i :: 0 <= i < |r| ==> |r[i].players| > 0
    ensures forall i :: 0 <= i < |r| ==> r[i] in Map(teams, TeamMonitor)
    ensures forall i :: 0 <= i < |teams| && |TeamMonitor(teams[i]).players| > 0 ==> TeamMonitor(teams[i]) in r
    ensures IsSubsequence(r, Map(teams, TeamMonitor))
  {
    var all := Map(teams, TeamMonitor);
    assert forall i :: 0 <= i < |teams| ==> all[i] == TeamMonitor(teams[i]);
    Filter(all, HasPlayers, true)
  }

  function GetPlayersToMonitor(response: Result<LeagueResponse>): (r: Result<seq<TeamMonitorReport>>)
    ensures response.Err? ==> r == Err("fetching league rosters: " + response.error)
    ensures response.Ok? ==> r == Ok(PlayersToMonitor(response.value.teams))
  {
    match response
    case Err(e) => Err("fetching league rosters: " + e)
    case Ok(league) => Ok(PlayersToMonitor(league.teams))
  }

  // ---- Team roster ----

  /** Team ids whose bye week is positive, mapped to that week; a later
      positive listing of the same id overwrites an earlier one, a later
      non-positive one leaves it. */
  function ByeWeeks(proTeams: seq<ProTeamInfo>): (r: map<int, int>)
    ensures forall id :: id in r ==> r[id] > 0
    ensures forall id :: id in r <==> exists i :: 0 <= i < |proTeams| && proTeams[i].id == id && proTeams[i].byeWeek > 0
    ensures forall id :: id in r ==> LastPositiveBye(proTeams, id, r[id])
    ensures |proTeams| > 0 && proTeams[|proTeams| - 1].byeWeek > 0 ==>
      r[proTeams[|proTeams| - 1].id] == proTeams[|proTeams| - 1].byeWeek
  {
    if |proTeams| == 0 then map[]
    else
      var init := proTeams[..|proTeams| - 1];
      var last := proTeams[|proTeams| - 1];
      var earlier := ByeWeeks(init);
      assert forall i :: 0 <= i < |init| ==> init[i] == proTeams[i];
      var r := if last.byeWeek > 0 then earlier[last.id := last.byeWeek] else earlier;
      forall id | id in r
        ensures LastPositiveBye(proTeams, id, r[id])
      {
        if last.byeWeek > 0 && id == last.id {
          assert proTeams[|proTeams| - 1].id == id && proTeams[|proTeams| - 1].byeWeek == r[id];
        } else {
          LastPositiveByeStep(proTeams, id, earlier[id]);
        }
      }
      r
  }

  /** The listing at `i` is the last one for `id` with a positive bye week,
      and that week is `week`. */
  ghost predicate LastPositiveBye(proTeams: seq<ProTeamInfo>, id: int, week: int) {
    exists i :: 0 <= i < |proTeams| && proTeams[i].id == id && proTeams[i].byeWeek == week
      && forall j :: i < j < |proTeams| && proTeams[j].id == id ==> proTeams[j].byeWeek <= 0
  }

  /** A final listing that is for another team, or has no bye, keeps the
      last positive listing of `id`. */
  lemma LastPositiveByeStep(proTeams: seq<ProTeamInfo>, id: int, week: int)
    requires |proTeams| > 0
    requires LastPositiveBye(proTeams[..|proTeams| - 1], id, week)
    requires proTeams[|proTeams| - 1].id != id || proTeams[|proTeams| - 1].byeWeek <= 0
    ensures LastPositiveBye(proTeams, id, week)
  {
    var init := proTeams[..|proTeams| - 1];
    var i :| 0 <= i < |init| && init[i].id == id && init[i].byeWeek == week
      && forall j :: i < j < |init| && init[j].id == id ==> init[j].byeWeek <= 0;
    assert proTeams[i] == init[i];
    assert forall j :: i < j < |init| ==> proTeams[j] == init[j];
  }

  function GetProSchedule(response: Result<seq<ProTeamInfo>>): (r: Result<map<int, int>>)
    ensures response.Err? ==> r == Err("fetching pro schedule: " + response.error)
    ensures response.Ok? ==> r == Ok(ByeWeeks(response.value))
  {
    match response
    case Err(e) => Err("fetching pro schedule: " + e)
    case Ok(proTeams) => Ok(ByeWeeks(proTeams))
  }

  /** A stat of `week` from the actual source. */
  predicate IsActualStat(s: Stat, week: int) {
    s.scoringPeriodId == week && s.statSourceId == 0
  }

  /** Points of the first actual stat of the week, if any. */
  function ActualPoints(stats: seq<Stat>, week: int): (r: Option<real>)
    ensures r.None? <==> forall j :: 0 <= j < |stats| ==> !IsActualStat(stats[j], week)
    ensures r.Some? ==> exists k :: (0 <= k < |stats| && IsActualStat(stats[k], week) && r.value == stats[k].appliedTotal
      && forall j :: 0 <= j < k ==> !IsActualStat(stats[j], week))
  {
    match FindFirst(stats, (s: Stat) => IsActualStat(s, week))
    case None => None
    case Some(k) => Some(stats[k].appliedTotal)
  }

  /** Injured reserve: the IR slot or the injury-reserve status. */
  predicate OnInjuredReserve(entry: RosterEntry) {
    entry.lineupSlotId == InjuredReserveSlot || entry.poolEntry.player.injuryStatus == "INJURY_RESERVE"
  }

  predicate OnBye(entry: RosterEntry, byeWeeks: map<int, int>, week: int) {
    entry.poolEntry.player.proTeamId in byeWeeks && byeWeeks[entry.poolEntry.player.proTeamId] == week
  }

  /** The roster's points label, by precedence: IR, then BYE, then the
      first actual stat of the week to two decimals, else TBD. */
  function PointsLabel(entry: RosterEntry, byeWeeks: map<int, int>, week: int): (r: string)
    ensures r == "IR" <==> OnInjuredReserve(entry)
    ensures r == "BYE" <==> !OnInjuredReserve(entry) && OnBye(entry, byeWeeks, week)
    ensures r == "TBD" <==> (!OnInjuredReserve(entry) && !OnBye(entry, byeWeeks, week)
      && ActualPoints(entry.poolEntry.player.stats, week).None?)
    ensures !OnInjuredReserve(entry) && !OnBye(entry, byeWeeks, week) && ActualPoints(entry.poolEntry.player.stats, week).Some?
      ==> r == Fixed2(ActualPoints(entry.poolEntry.player.stats, week).value)
  {
    if OnInjuredReserve(entry) then "IR"
    else if OnBye(entry, byeWeeks, week) then "BYE"
    else match ActualPoints(entry.poolEntry.player.stats, week)
      case None => "TBD"
      case Some(points) =>
        FixedIsNotWord(points, "IR");
        FixedIsNotWord(points, "BYE");
        FixedIsNotWord(points, "TBD");
        Fixed2(points)
  }

  function ToRosterPlayer(entry: RosterEntry, byeWeeks: map<int, int>, week: int): (r: RosterPlayer)
    ensures r.name == entry.poolEntry.player.fullName
    ensures r.position == PositionString(entry.poolEntry.player.defaultPositionId)
    ensures r.lineupSlot == LineupSlotString(entry.lineupSlotId)
    ensures r.injuryStatus == entry.poolEntry.player.injuryStatus
    ensures r.isStarter == IsStartingLineup(entry.lineupSlotId)
    ensures r.points == PlayerPoints(entry.poolEntry, week).0
    ensures r.pointsLabel == PointsLabel(entry, byeWeeks, week)
  {
    var player := entry.poolEntry.player;
    RosterPlayer(
      player.fullName, PositionString(player.defaultPositionId), PlayerPoints(entry.poolEntry, week).0,
      PointsLabel(entry, byeWeeks, week), IsStartingLineup(entry.lineupSlotId),
      LineupSlotString(entry.lineupSlotId), player.injuryStatus)
  }

  function RosterPlayers(roster: seq<RosterEntry>, byeWeeks: map<int, int>, week: int): (r: seq<RosterPlayer>)
    ensures |r| == |roster| && forall i :: 0 <= i < |r| ==> r[i] == ToRosterPlayer(roster[i], byeWeeks, week)
  {
    seq(|roster|, i requires 0 <= i < |roster| => ToRosterPlayer(roster[i], byeWeeks, week))
  }

  /** Starter order by position; a position outside the table ranks 0. */
  const PositionOrder: map<string, int> :=
    map["QB" := 1, "RB" := 2, "WR" := 3, "TE" := 4, "FLEX" := 5, "D/ST" := 6, "K" := 7]

  function PositionRank(position: string): (r: int)
    ensures position in PositionOrder ==> r == PositionOrder[position] && r >= 1
    ensures position !in PositionOrder ==> r == 0
  {
    if position in PositionOrder then PositionOrder[position] else 0
  }

  function StarterBefore(a: RosterPlayer, b: RosterPlayer): bool {
    PositionRank(a.position) < PositionRank(b.position)
  }

  lemma StarterBeforeIsStrictWeakOrder()
    ensures StrictWeakOrder(StarterBefore)
  {
  }

  predicate IsStarter(p: RosterPlayer) {
    p.isStarter
  }

  /** The starters sorted by position rank. */
  function SortStarters(starters: seq<RosterPlayer>): (r: seq<RosterPlayer>)
    requires forall i :: 0 <= i < |starters| ==> starters[i].isStarter
    ensures |r| == |starters| && multiset(r) == multiset(starters)
    ensures forall i :: 0 <= i < |r| ==> r[i].isStarter
    ensures forall i, j :: 0 <= i < j < |r| ==> PositionRank(r[i].position) <= PositionRank(r[j].position)
  {
    var sorted := SortBy(starters, StarterBefore);
    StarterBeforeIsStrictWeakOrder();
    SortBySorted(starters, StarterBefore);
    assert forall i :: 0 <= i < |sorted| ==> sorted[i] in multiset(starters);
    sorted
  }

  /** Starters by position rank, then the bench in roster order. */
  function ArrangeRoster(players: seq<RosterPlayer>): (r: seq<RosterPlayer>)
    ensures |r| == |players|
    ensures multiset(r) == multiset(players)
    ensures var k := |Filter(players, IsStarter, true)|;
      && k <= |r|
      && (forall i :: 0 <= i < k ==> r[i].isStarter)
      && (forall i, j :: 0 <= i < j < k ==> PositionRank(r[i].position) <= PositionRank(r[j].position))
      && r[k..] == Filter(players, IsStarter, false)
  {
    var starters := Filter(players, IsStarter, true);
    var bench := Filter(players, IsStarter, false);
    FilterPartition(players, IsStarter);
    var sorted := SortStarters(starters);
    AppendParts(sorted, bench);
    sorted + bench
  }

  /** Starters whose position has no rank are listed before every ranked starter. */
  lemma UnrankedStartersFirst(players: seq<RosterPlayer>)
    ensures var r, k := ArrangeRoster(players), |Filter(players, IsStarter, true)|;
      forall i, j :: 0 <= i < j < k && r[j].position !in PositionOrder ==> r[i].position !in PositionOrder
  {
    var r, k := ArrangeRoster(players), |Filter(players, IsStarter, true)|;
    forall i, j | 0 <= i < j < k && r[j].position !in PositionOrder
      ensures r[i].position !in PositionOrder
    {
      assert PositionRank(r[i].position) <= PositionRank(r[j].position) == 0;
    }
  }

  function TeamNames(teams: seq<Team>): (names: seq<string>)
    ensures |names| == |teams| && forall i :: 0 <= i < |names| ==> names[i] == TeamName(teams[i].id)
  {
    seq(|teams|, i requires 0 <= i < |teams| => TeamName(teams[i].id))
  }

  /** Index of the team the lookup settles on, by the team-name table. */
  function MatchTeam(teams: seq<Team>, query: string): (r: Option<nat>)
    ensures r.Some? ==> r.value < |teams| && Matches(query, TeamName(teams[r.value].id), TeamThreshold)
    ensures r.Some? ==> forall j :: 0 <= j < r.value ==> !Matches(query, TeamName(teams[j].id), TeamThreshold)
    ensures r.None? ==> forall j :: 0 <= j < |teams| ==> !Matches(query, TeamName(teams[j].id), TeamThreshold)
  {
    var names := TeamNames(teams);
    SearchScanFindsFirstMatch(query, names, TeamThreshold);
    SearchScan(query, names, TeamThreshold).best
  }

  /** The matched team's roster: every entry once, starters first. */
  function BuildTeamRoster(team: Team, byeWeeks: map<int, int>, week: int): (r: TeamRoster)
    ensures r.teamName == TeamName(team.id)
    ensures |r.players| == |team.roster|
    ensures multiset(r.players) == multiset(RosterPlayers(team.roster, byeWeeks, week))
    ensures r.players == ArrangeRoster(RosterPlayers(team.roster, byeWeeks, week))
    ensures var all := RosterPlayers(team.roster, byeWeeks, week);
      var k := |Filter(all, IsStarter, true)|;
      && (forall i :: 0 <= i < |r.players| ==> (r.players[i].isStarter <==> i < k))
      && (forall i, j :: 0 <= i < j < k ==> PositionRank(r.players[i].position) <= PositionRank(r.players[j].position))
      && r.players[k..] == Filter(all, IsStarter, false)
  {
    TeamRoster(TeamName(team.id), ArrangeRoster(RosterPlayers(team.roster, byeWeeks, week)))
  }

  lemma PrefixTwice(prefix: string, e: string)
    ensures prefix + (prefix + e) == prefix + prefix + e
  {
  }

  /** A team's roster for `week`. The failures are checked in the Go
      order: rosters, scoreboard, team lookup, pro schedule; the schedule's
      own prefix is wrapped once more. */
  function GetTeamRoster(
    teamName: string, week: int,
    rosters: Result<LeagueResponse>, scoreboard: Result<seq<MatchupScore>>, schedule: Result<seq<ProTeamInfo>>
  ): (r: Result<TeamRoster>)
    ensures rosters.Err? ==> r == Err("fetching league rosters: " + rosters.error)
    ensures rosters.Ok? && scoreboard.Err? ==> r == Err("fetching scoreboard: " + scoreboard.error)
    ensures rosters.Ok? && scoreboard.Ok? && MatchTeam(rosters.value.teams, teamName).None?
      ==> r == Err("team not found: " + teamName)
    ensures rosters.Ok? && scoreboard.Ok? && MatchTeam(rosters.value.teams, teamName).Some? && schedule.Err?
      ==> r == Err("fetching pro schedule: " + "fetching pro schedule: " + schedule.error)
    ensures r.Ok? <==> rosters.Ok? && scoreboard.Ok? && MatchTeam(rosters.value.teams, teamName).Some? && schedule.Ok?
    ensures r.Ok? ==>
      var team := rosters.value.teams[MatchTeam(rosters.value.teams, teamName).value];
      && r.value.teamName == TeamName(team.id)
      && r.value == BuildTeamRoster(team, ByeWeeks(schedule.value), week)
  {
    if rosters.Err? then Err("fetching league rosters: " + rosters.error)
    else if scoreboard.Err? then Err("fetching scoreboard: " + scoreboard.error)
    else match MatchTeam(rosters.value.teams, teamName)
      case None => Err("team not found: " + teamName)
      case Some(k) =>
        match GetProSchedule(schedule)
        case Err(e) =>
          PrefixTwice("fetching pro schedule: ", schedule.error);
          Err("fetching pro schedule: " + e)
        case Ok(byeWeeks) =>
          Ok(BuildTeamRoster(rosters.value.teams[k], byeWeeks, week))
  }
}

=== FILE: espn_tables.dfy ===
/** The static lookup tables of the provider adapter
    (internal/api/espn/league.go): position, professional team, league team
    name, lineup slot, starting slots and monitored injury statuses. */
module EspnTables {

  const Unknown := "Unknown"

  /** Table lookup with the adapter's "Unknown" fallback for unmapped ids. */
  function Lookup(table: map<int, string>, key: int): (r: string)
    requires Unknown !in table.Values
    ensures key in table ==> r == table[key]
    ensures r == Unknown <==> key !in table
  {
    if key in table then table[key] else Unknown
  }

  const Positions: map<int, string> :=
    map[1 := "QB", 2 := "RB", 3 := "WR", 4 := "TE", 5 := "K", 16 := "D/ST"]

  const ProTeams: map<int, string> :=
    map[1 := "ATL", 2 := "BUF", 3 := "CHI", 4 := "CIN", 5 := "CLE", 6 := "DAL", 7 := "DEN", 8 := "DET",
        9 := "GB", 10 := "TEN", 11 := "IND", 12 := "KC", 13 := "LV", 14 := "LAR", 15 := "MIA", 16 := "MIN",
        17 := "NE", 18 := "NO", 19 := "NYG", 20 := "NYJ", 21 := "PHI", 22 := "ARI", 23 := "PIT", 24 := "LAC",
        25 := "SF", 26 := "SEA", 27 := "TB", 28 := "WSH", 29 := "CAR", 30 := "JAX", 33 := "BAL", 34 := "HOU"]

  /** The adapter's own team-name table; the service layer keeps another. */
  const TeamNames: map<int, string> :=
    map[2 := "Coach Dad", 3 := "Stairway to Evans", 6 := "Team InvincibleVince",
        5 := "Beyond Cursed", 1 := "I Weigh Less Than Omar", 4 := "UGF Pandas"]

  /** Slot ids with an explicit entry; a missing id reads as `false`. */
  const StartingSlots: map<int, bool> :=
    map[0 := true, 2 := true, 4 := true, 6 := true, 16 := true, 17 := true,
        20 := false, 21 := false, 23 := true]

  const BenchSlot := 20
  const InjuredReserveSlot := 21

  function PositionString(positionId: int): (r: string)
    ensures r != Unknown <==> positionId in {1, 2, 3, 4, 5, 16}
    ensures r in {"QB", "RB", "WR", "TE", "K", "D/ST", Unknown}
  {
    Lookup(Positions, positionId)
  }

  function ProTeamString(proTeamId: int): (r: string)
    ensures r != Unknown <==> 1 <= proTeamId <= 30 || proTeamId == 33 || proTeamId == 34
    ensures |r| <= 3 || r == Unknown
  {
    Lookup(ProTeams, proTeamId)
  }

  function TeamName(teamId: int): (r: string)
    ensures r != Unknown <==> 1 <= teamId <= 6
  {
    Lookup(TeamNames, teamId)
  }

  /** `startingSlots[slotID]` on a Go map: absent ids give `false`. */
  function IsStartingLineup(slotId: int): (r: bool)
    ensures r <==> slotId in {0, 2, 4, 6, 16, 17, 23}
  {
    slotId in StartingSlots && StartingSlots[slotId]
  }

  predicate IsPlayerToMonitor(status: string) {
    status == "QUESTIONABLE" || status == "DOUBTFUL" || status == "OUT"
  }

  function LineupSlotString(slotId: int): (r: string)
    ensures r != Unknown <==> slotId in {0, 2, 4, 6, 16, 17, 20, 21, 23}
  {
    match slotId
    case 0 => "QB"
    case 2 => "RB"
    case 4 => "WR"
    case 6 => "TE"
    case 16 => "D/ST"
    case 17 => "K"
    case 20 => "Bench"
    case 21 => "IR"
    case 23 => "FLEX"
    case _ => Unknown
  }

  /** The starting-slot table and the slot-name switch agree: a slot starts
      exactly when its name is a playing position or FLEX, and the two
      non-starting named slots are Bench and IR. */
  lemma StartingSlotsAreNamedPositions(slotId: int)
    ensures IsStartingLineup(slotId) <==> LineupSlotString(slotId) in {"QB", "RB", "WR", "TE", "D/ST", "K", "FLEX"}
    ensures !IsStartingLineup(slotId) && LineupSlotString(slotId) != Unknown <==> slotId in {BenchSlot, InjuredReserveSlot}
  {
  }
}

=== FILE: fantasy_service.dfy ===
/** The service's report operations (internal/service/fantasy.go): each
    resolves the current week through the metadata cache (standings need
    none), asks the provider for the records it needs, and formats them.
    The provider is a set of answers, one per endpoint, the weekly ones as
    functions of the week. */
module FantasyService {
  import opened Wrappers
  import opened Models
  import opened MemoryRepository
  import opened MetadataCache
  import opened ScoreAggregation
  import opened ReportText
  import EspnLeague

  datatype Provider = Provider(
    league: Result<LeagueResponse>,
    standings: Result<LeagueResponse>,
    scores: int -> Result<seq<MatchupScore>>,
    rosters: int -> Result<LeagueResponse>,
    scoreboard: int -> Result<seq<MatchupScore>>,
    schedule: Result<seq<ProTeamInfo>>)

  /** The report operations the service exposes. */
  datatype Request =
    | Scores
    | Standings
    | WhoHas(player: string)
    | Monitor
    | FinalScores
    | CloseGames
    | Matchups
    | Roster(team: string)

  /** The text each operation puts before a provider failure. The three
      reports built from the current scores share one prefix; the final
      score report's prefix names matchups. */
  function ErrorPrefix(request: Request): (r: string)
    ensures |r| >= 8 && r[..6] == "error " && r[|r| - 2..] == ": "
    ensures r == "error fetching current scores: " <==> request.Scores? || request.CloseGames? || request.Matchups?
    ensures request.FinalScores? ==> r == "error fetching matchups: "
  {
    match request
    case Scores => "error fetching current scores: "
    case Standings => "error fetching standings: "
    case WhoHas(_) => "error checking who has player: "
    case Monitor => "error fetching players to monitor: "
    case FinalScores => "error fetching matchups: "
    case CloseGames => "error fetching current scores: "
    case Matchups => "error fetching current scores: "
    case Roster(_) => "error fetching team roster: "
  }

  /** Wraps a failure in the operation's prefix. */
  function Wrap(request: Request, r: Result<string>): (w: Result<string>)
    ensures w.Ok? <==> r.Ok?
    ensures r.Ok? ==> w == r
    ensures r.Err? ==> w.error == ErrorPrefix(request) + r.error
  {
    match r
    case Ok(text) => Ok(text)
    case Err(e) => Err(ErrorPrefix(request) + e)
  }

  /** What a successful reply says: each operation's text is its
      formatter applied to the provider's answer for the week, as the
      adapter converts it. */
  predicate IsReportText(request: Request, week: int, provider: Provider, text: string) {
    match request
    case Standings =>
      && provider.standings.Ok?
      && text == StandingsText(EspnLeague.RankStandings(Seqs.Map(provider.standings.value.teams, EspnLeague.ToStanding)))
    case Scores =>
      && provider.scores(week).Ok?
      && text == CurrentScoresText(week, Seqs.Map(provider.scores(week).value, EspnLeague.ToScoreRecord))
    case Matchups =>
      && provider.scores(week).Ok?
      && text == MatchupsText(week, Seqs.Map(provider.scores(week).value, EspnLeague.ToScoreRecord))
    case FinalScores =>
      && provider.scores(week).Ok?
      && text == FinalScoreText(ProcessScores(Seqs.Map(provider.scores(week).value, EspnLeague.ToScoreRecord)))
    case CloseGames =>
      && provider.scores(week).Ok?
      && text == CloseGamesText(FindCloseGames(Seqs.Map(provider.scores(week).value, EspnLeague.ToScoreRecord)))
    case Monitor =>
      && provider.rosters(week).Ok?
      && text == MonitorText(week, EspnLeague.PlayersToMonitor(provider.rosters(week).value.teams))
    case WhoHas(player) =>
      && provider.rosters(week).Ok?
      && var teams := provider.rosters(week).value.teams;
         text == WhoHasText(player, EspnLeague.SearchPlayers(
           teams, Seqs.Map(EspnLeague.AllEntries(teams), EspnLeague.PoolEntryOf), player, week))
    case Roster(team) =>
      var roster := EspnLeague.GetTeamRoster(team, week, provider.rosters(week), provider.scoreboard(week), provider.schedule);
      roster.Ok? && text == TeamRosterText(roster.value)
  }

  /** A report built from the week's scoreboard, unprefixed: the adapter's
      failure as it is, or the report text of the score records. */
  function FromScores(request: Request, week: int, provider: Provider): (r: Result<string>)
    requires request.Scores? || request.FinalScores? || request.CloseGames? || request.Matchups?
    ensures r.Err? <==> provider.scores(week).Err?
    ensures r.Err? ==> r.error == "fetching current scores: " + provider.scores(week).error
    ensures r.Ok? ==> IsReportText(request, week, provider, r.value)
  {
    match EspnLeague.GetCurrentScores(provider.scores(week))
    case Err(e) => Err(e)
    case Ok(scores) =>
      assert scores == Seqs.Map(provider.scores(week).value, EspnLeague.ToScoreRecord);
      Ok(match request
         case Scores => CurrentScoresText(week, scores)
         case FinalScores => FinalScoreText(ProcessScores(scores))
         case CloseGames => CloseGamesText(FindCloseGames(scores))
         case Matchups => MatchupsText(week, scores))
  }

  /** A report built from the week's rosters, unprefixed. */
  function FromRosters(request: Request, week: int, provider: Provider): (r: Result<string>)
    requires request.WhoHas? || request.Monitor?
    ensures r.Err? <==> provider.rosters(week).Err?
    ensures r.Err? ==> r.error == "fetching league rosters: " + provider.rosters(week).error
    ensures r.Ok? ==> IsReportText(request, week, provider, r.value)
  {
    if request.WhoHas? then
      match EspnLeague.WhoHas(provider.rosters(week), request.player, week)
      case Err(e) => Err(e)
      case Ok(result) => Ok(WhoHasText(request.player, result))
    else
      match EspnLeague.GetPlayersToMonitor(provider.rosters(week))
      case Err(e) => Err(e)
      case Ok(teams) => Ok(MonitorText(week, teams))
  }

  /** The roster report, unprefixed: the adapter's failure as it is, or
      the roster's text. */
  function FromTeamRoster(team: string, week: int, provider: Provider): (r: Result<string>)
    ensures var roster := EspnLeague.GetTeamRoster(team, week, provider.rosters(week), provider.scoreboard(week), provider.schedule);
      && (r.Err? <==> roster.Err?)
      && (r.Err? ==> r.error == roster.error)
      && (r.Ok? ==> r.value == TeamRosterText(roster.value))
  {
    match EspnLeague.GetTeamRoster(team, week, provider.rosters(week), provider.scoreboard(week), provider.schedule)
    case Err(e) => Err(e)
    case Ok(roster) => Ok(TeamRosterText(roster))
  }

  /** The unprefixed outcome of a week-bound operation: the failure of the
      provider call it needs, or its report text. */
  function Produce(request: Request, week: int, provider: Provider): (r: Result<string>)
    requires !request.Standings?
    ensures request.Scores? || request.FinalScores? || request.CloseGames? || request.Matchups? ==>
      && (r.Err? <==> provider.scores(week).Err?)
      && (r.Err? ==> r.error == "fetching current scores: " + provider.scores(week).error)
    ensures request.WhoHas? || request.Monitor? ==>
      && (r.Err? <==> provider.rosters(week).Err?)
      && (r.Err? ==> r.error == "fetching league rosters: " + provider.rosters(week).error)
    ensures r.Ok? ==> IsReportText(request, week, provider, r.value)
    ensures request.Roster? ==>
      var roster := EspnLeague.GetTeamRoster(request.team, week, provider.rosters(week), provider.scoreboard(week), provider.schedule);
      && (r.Err? <==> roster.Err?)
      && (r.Err? ==> r.error == roster.error)
  {
    if request.Roster? then FromTeamRoster(request.team, week, provider)
    else if request.WhoHas? || request.Monitor? then FromRosters(request, week, provider)
    else FromScores(request, week, provider)
  }

  /** A week-bound report fails exactly when the provider call it needs
      fails, and the failure carries the operation's prefix. */
  function WeeklyReport(request: Request, week: int, provider: Provider): (r: Result<string>)
    requires !request.Standings?
    ensures request.Scores? || request.FinalScores? || request.CloseGames? || request.Matchups? ==>
      && (r.Err? <==> provider.scores(week).Err?)
      && (r.Err? ==> r.error == ErrorPrefix(request) + ("fetching current scores: " + provider.scores(week).error))
    ensures request.WhoHas? || request.Monitor? ==>
      && (r.Err? <==> provider.rosters(week).Err?)
      && (r.Err? ==> r.error == ErrorPrefix(request) + ("fetching league rosters: " + provider.rosters(week).error))
    ensures r.Err? ==> exists e :: r.error == ErrorPrefix(request) + e
    ensures r.Ok? ==> IsReportText(request, week, provider, r.value)
    ensures request.Roster? ==>
      var roster := EspnLeague.GetTeamRoster(request.team, week, provider.rosters(week), provider.scoreboard(week), provider.schedule);
      && (r.Err? <==> roster.Err?)
      && (r.Err? ==> r.error == ErrorPrefix(request) + roster.error)
  {
    Wrap(request, Produce(request, week, provider))
  }

  /** A reply and the store after it. */
  datatype Reply = Reply(text: Result<string>, repo: Repository)

  /** One operation on demand or on schedule; the store changes only
      through the cached week lookup. */
  function Serve(request: Request, repo: Repository, now: int, provider: Provider): (r: Reply)
    ensures request.Standings? ==> r.repo == repo
    ensures request.Standings? ==> (r.text.Err? <==> provider.standings.Err?)
    ensures request.Standings? && provider.standings.Err? ==>
      r.text.error == "error fetching standings: " + "fetching standings: " + provider.standings.error
    ensures request.Standings? && provider.standings.Ok? ==>
      r.text == Ok(StandingsText(EspnLeague.RankStandings(Seqs.Map(provider.standings.value.teams, EspnLeague.ToStanding))))
    ensures !request.Standings? ==> r.repo == GetCurrentWeek(repo, now, provider.league).1
    ensures !request.Standings? && GetCurrentWeek(repo, now, provider.league).0.Err? ==>
      r.text == Err("error fetching current week: " + GetCurrentWeek(repo, now, provider.league).0.error)
    ensures !request.Standings? && GetCurrentWeek(repo, now, provider.league).0.Ok? ==>
      r.text == WeeklyReport(request, GetCurrentWeek(repo, now, provider.league).0.value, provider)
  {
    if request.Standings? then
      match EspnLeague.GetStandings(provider.standings)
      case Err(e) =>
        assert e == "fetching standings: " + provider.standings.error;
        Reply(Err("error fetching standings: " + e), repo)
      case Ok(ranked) => Reply(Ok(StandingsText(ranked)), repo)
    else
      var (week, repo') := GetCurrentWeek(repo, now, provider.league);
      match week
      case Err(e) => Reply(Err("error fetching current week: " + e), repo')
      case Ok(w) => Reply(WeeklyReport(request, w, provider), repo')
  }

  /** Within a day of a fetch the week comes from the store: the second
      request's reply does not depend on the provider's metadata answer. */
  lemma SecondRequestUsesCachedWeek(
    first: Request, second: Request, repo: Repository, now: int, later: int, provider: Provider, provider': Provider)
    requires !first.Standings? && !second.Standings?
    requires provider.league.Ok? && NeedsRefresh(repo, now)
    requires now <= later <= now + Day
    ensures var r1 := Serve(first, repo, now, provider);
      && r1.repo.metadata.Some?
      && Serve(second, r1.repo, later, provider').repo == r1.repo
      && Serve(second, r1.repo, later, provider').text
         == WeeklyReport(second, provider.league.value.status.currentMatchupPeriod, provider')
  {
    var outcome := GetLeagueMetadata(repo, now, provider.league);
    assert outcome.repo.metadata == Some(outcome.result.value);
    var again := GetLeagueMetadata(outcome.repo, later, provider'.league);
    assert !again.fetched;
  }
}

=== FILE: handlers.dfy ===
/** Command dispatch of the chat bot (internal/bot/handlers.go): the
    command is lowercased, fixed commands answer with fixed text, lookups
    without an argument answer with their usage, and every other command
    answers with the service's text or a prefixed error. */
module BotHandlers {
  import opened Wrappers
  import opened Text
  import opened FantasyService

  const Markdown := "Markdown"

  const WelcomeText := "Welcome to CoachBot! Use /help to see available commands."
  const HelpText :=
    "Available commands:\n"
      + "/scores - Get current scores\n"
      + "/standings - Get league standings\n"
      + "/team <team> - View team's roster and points\n"
      + "/whohas <player> - Check which team has a player\n"
      + "/monitor - Get players to monitor\n"
      + "/finalscore - Get final score report\n"
      + "/mondaynight - Get close games for Monday night\n"
      + "/matchup - Get matchups for this week"
  const UnknownCommandText := "Unknown command. Use /help to see available commands."
  const PlayerUsage := "Please provide a player name. Usage: /whohas <player name>"
  const TeamUsage := "Please provide a team name. Usage: /team <team name>"

  datatype Message = Message(text: string, parseMode: string)

  /** What a command leads to: a fixed reply, or a service call whose
      failure is reported after `errorPrefix`. */
  datatype Route = Fixed(reply: string) | Call(request: Request, errorPrefix: string)

  /** Dispatch on the lowercased command. */
  function Dispatch(command: string, args: string): (r: Route)
    ensures command == "start" ==> r == Fixed(WelcomeText)
    ensures command == "help" ==> r == Fixed(HelpText)
    ensures command == "whohas" ==> (r.Fixed? <==> args == "")
    ensures command == "team" ==> (r.Fixed? <==> args == "")
    ensures r.Call? && r.request.WhoHas? ==> r.request.player == args && args != ""
    ensures r.Call? && r.request.Roster? ==> r.request.team == args && args != ""
    ensures command == "whohas" && args == "" ==> r == Fixed(PlayerUsage)
    ensures command == "team" && args == "" ==> r == Fixed(TeamUsage)
    ensures command == "whohas" && args != "" ==> r == Call(WhoHas(args), "Error checking who has player: ")
    ensures command == "team" && args != "" ==> r == Call(Roster(args), "Error getting team roster: ")
    ensures command == "scores" ==> r == Call(Scores, "Error fetching scores: ")
    ensures command == "standings" ==> r == Call(Standings, "Error fetching standings: ")
    ensures command == "monitor" ==> r == Call(Monitor, "Error fetching players to monitor: ")
    ensures command == "finalscore" ==> r == Call(FinalScores, "Error generating final score report: ")
    ensures command == "mondaynight" ==> r == Call(CloseGames, "Error generating Monday night close games report: ")
    ensures command == "matchup" ==> r == Call(Matchups, "Error generating matchups report: ")
    ensures command !in {"start", "help", "scores", "standings", "whohas", "monitor", "finalscore", "mondaynight", "matchup", "team"}
      ==> r == Fixed(UnknownCommandText)
  {
    match command
    case "start" => Fixed(WelcomeText)
    case "help" => Fixed(HelpText)
    case "scores" => Call(Scores, "Error fetching scores: ")
    case "standings" => Call(Standings, "Error fetching standings: ")
    case "whohas" => if args == "" then Fixed(PlayerUsage) else Call(WhoHas(args), "Error checking who has player: ")
    case "monitor" => Call(Monitor, "Error fetching players to monitor: ")
    case "finalscore" => Call(FinalScores, "Error generating final score report: ")
    case "mondaynight" => Call(CloseGames, "Error generating Monday night close games report: ")
    case "matchup" => Call(Matchups, "Error generating matchups report: ")
    case "team" => if args == "" then Fixed(TeamUsage) else Call(Roster(args), "Error getting team roster: ")
    case _ => Fixed(UnknownCommandText)
  }

  /** The reply to a command; `service` is the outcome each report
      operation would have. */
  function HandleCommand(command: string, args: string, service: Request -> Result<string>): (r: Message)
    ensures r.parseMode == Markdown
    ensures Dispatch(ToLower(command), args).Fixed? ==> r.text == Dispatch(ToLower(command), args).reply
    ensures Dispatch(ToLower(command), args).Call? ==>
      var route := Dispatch(ToLower(command), args);
      && (service(route.request).Ok? ==> r.text == service(route.request).value)
      && (service(route.request).Err? ==> r.text == route.errorPrefix + service(route.request).error)
  {
    match Dispatch(ToLower(command), args)
    case Fixed(reply) => Message(reply, Markdown)
    case Call(request, prefix) =>
      match service(request)
      case Ok(text) => Message(text, Markdown)
      case Err(e) => Message(prefix + e, Markdown)
  }

  /** Commands are matched regardless of letter case. */
  lemma CaseInsensitive(command: string, args: string, service: Request -> Result<string>)
    ensures HandleCommand(command, args, service) == HandleCommand(ToLower(command), args, service)
  {
    ToLowerIdempotent(command);
  }

  /** A fixed reply does not depend on the service at all. */
  lemma FixedRepliesIgnoreService(command: string, args: string, s1: Request -> Result<string>, s2: Request -> Result<string>)
    requires Dispatch(ToLower(command), args).Fixed?
    ensures HandleCommand(command, args, s1) == HandleCommand(command, args, s2)
  {
  }
}

=== FILE: levenshtein.dfy ===
/** Edit distance (insertions, deletions and substitutions of one character
    each cost 1), the measure the fuzzy name lookups rank candidates by, and
    the similarity test built on it. */
module Levenshtein {
  import opened Text

  function Min3(a: nat, b: nat, c: nat): (m: nat)
    ensures m <= a && m <= b && m <= c
    ensures m == a || m == b || m == c
  {
    if a <= b && a <= c then a else if b <= c then b else c
  }

  function Max(a: nat, b: nat): nat {
    if a >= b then a else b
  }

  /** Reference definition over prefixes: the cheapest of deleting the last
      character of `a`, inserting the last character of `b`, or matching
      the two last characters (free when they are equal). */
  function Distance(a: string, b: string): nat
    decreases |a| + |b|
  {
    if |a| == 0 then |b|
    else if |b| == 0 then |a|
    else
      var i, j := |a| - 1, |b| - 1;
      Min3(Distance(a[..i], b) + 1,
           Distance(a, b[..j]) + 1,
           Distance(a[..i], b[..j]) + (if a[i] == b[j] then 0 else 1))
  }

  lemma {:induction false} DistanceToSelf(a: string)
    ensures Distance(a, a) == 0
  {
    if |a| > 0 {
      DistanceToSelf(a[..|a| - 1]);
    }
  }

  /** The distance never exceeds the longer length, so similarity is never negative. */
  lemma {:induction false} DistanceAtMostLonger(a: string, b: string)
    ensures Distance(a, b) <= Max(|a|, |b|)
    decreases |a| + |b|
  {
    if |a| > 0 && |b| > 0 {
      DistanceAtMostLonger(a[..|a| - 1], b[..|b| - 1]);
    }
  }

  /** The distance is at least the difference in lengths. */
  lemma {:induction false} DistanceAtLeastLengthGap(a: string, b: string)
    ensures Distance(a, b) >= |a| - |b| && Distance(a, b) >= |b| - |a|
    decreases |a| + |b|
  {
    if |a| > 0 && |b| > 0 {
      DistanceAtLeastLengthGap(a[..|a| - 1], b);
      DistanceAtLeastLengthGap(a, b[..|b| - 1]);
      DistanceAtLeastLengthGap(a[..|a| - 1], b[..|b| - 1]);
    }
  }

  /** Distance zero means the strings are equal, and conversely. */
  lemma DistanceZeroIffEqual(a: string, b: string)
    ensures Distance(a, b) == 0 <==> a == b
  {
    if a == b {
      DistanceToSelf(a);
    }
    if Distance(a, b) == 0 {
      ZeroDistanceEqual(a, b);
    }
  }

  lemma {:induction false} ZeroDistanceEqual(a: string, b: string)
    requires Distance(a, b) == 0
    ensures a == b
    decreases |a| + |b|
  {
    DistanceAtLeastLengthGap(a, b);
    if |a| > 0 {
      var i := |a| - 1;
      assert Distance(a[..i], b[..i]) == 0 && a[i] == b[i];
      ZeroDistanceEqual(a[..i], b[..i]);
      assert a == a[..i] + [a[i]] && b == b[..i] + [b[i]];
    }
  }

  /** One cell of the table: the distance between two non-empty prefixes in
      terms of the three neighbouring cells. */
  lemma DistanceCell(a: string, b: string, i: nat, j: nat)
    requires i < |a| && j < |b|
    ensures Distance(a[..i + 1], b[..j + 1])
         == Min3(Distance(a[..i], b[..j + 1]) + 1,
                 Distance(a[..i + 1], b[..j]) + 1,
                 Distance(a[..i], b[..j]) + (if a[i] == b[j] then 0 else 1))
  {
    var row, col := a[..i + 1], b[..j + 1];
    assert row[..i] == a[..i] && row[i] == a[i];
    assert col[..j] == b[..j] && col[j] == b[j];
  }

  /** The cell computed from its three neighbours' values is the distance
      between the two prefixes. */
  lemma CellFromNeighbours(a: string, b: string, i: nat, j: nat, up: nat, left: nat, diag: nat)
    requires i < |a| && j < |b|
    requires up == Distance(a[..i], b[..j + 1])
    requires left == Distance(a[..i + 1], b[..j])
    requires diag == Distance(a[..i], b[..j])
    ensures Min3(up + 1, left + 1, diag + (if a[i] == b[j] then 0 else 1)) == Distance(a[..i + 1], b[..j + 1])
  {
    DistanceCell(a, b, i, j);
  }

  /** The row-by-row table computation the fuzzy-search library performs:
      row `i` holds the distances from `a[..i]` to every prefix of `b`. */
  method ComputeDistance(a: string, b: string) returns (d: nat)
    ensures d == Distance(a, b)
  {
    var prev: seq<nat> := seq(|b| + 1, j requires 0 <= j <= |b| => j);
    var i := 0;
    while i < |a|
      invariant 0 <= i <= |a|
      invariant |prev| == |b| + 1
      invariant forall j :: 0 <= j <= |b| ==> prev[j] == Distance(a[..i], b[..j])
    {
      prev := NextRow(a, b, i, prev);
      i := i + 1;
    }
    assert a[..|a|] == a && b[..|b|] == b;
    d := prev[|b|];
  }

  /** Row `i + 1` of the table from row `i`. */
  method NextRow(a: string, b: string, i: nat, prev: seq<nat>) returns (cur: seq<nat>)
    requires i < |a| && |prev| == |b| + 1
    requires forall j :: 0 <= j <= |b| ==> prev[j] == Distance(a[..i], b[..j])
    ensures |cur| == |b| + 1
    ensures forall j :: 0 <= j <= |b| ==> cur[j] == Distance(a[..i + 1], b[..j])
  {
    assert Distance(a[..i + 1], b[..0]) == i + 1;
    cur := [i + 1];
    var j := 0;
    while j < |b|
      invariant 0 <= j <= |b|
      invariant |cur| == j + 1
      invariant forall k :: 0 <= k <= j ==> cur[k] == Distance(a[..i + 1], b[..k])
    {
      var cost := if a[i] == b[j] then 0 else 1;
      var cell := Min3(prev[j + 1] + 1, cur[j] + 1, prev[j] + cost);
      CellFromNeighbours(a, b, i, j, prev[j + 1], cur[j], prev[j]);
      ghost var before := cur;
      cur := cur + [cell];
      assert forall k :: 0 <= k <= j ==> cur[k] == before[k];
      assert cur[j + 1] == Distance(a[..i + 1], b[..j + 1]);
      j := j + 1;
    }
  }

  /** The lookup's similarity `1 - d/m` with `m` the longer length, compared
      strictly against `threshold`. When both names are empty Go divides
      zero by zero and the NaN comparison is false; `m > 0` models that. */
  predicate ExceedsThreshold(d: nat, m: nat, threshold: real) {
    m > 0 && 1.0 - (d as real) / (m as real) > threshold
  }

  /** `1 - d/m > t` is `d < (1 - t) * m` once `m` is positive. */
  lemma ThresholdAsProduct(d: nat, m: nat, threshold: real)
    requires m > 0
    ensures ExceedsThreshold(d, m, threshold) <==> (d as real) < (1.0 - threshold) * (m as real)
  {
    var q := (d as real) / (m as real);
    var gap := (1.0 - threshold) - q;
    assert gap * (m as real) == (1.0 - threshold) * (m as real) - d as real;
    PositiveFactor(gap, m as real);
  }

  lemma PositiveFactor(x: real, y: real)
    requires y > 0.0
    ensures x > 0.0 <==> x * y > 0.0
  {
  }

  /** The 0.7 player threshold in integer form. */
  lemma PlayerThresholdInIntegers(d: nat, m: nat)
    ensures ExceedsThreshold(d, m, 0.7) <==> m > 0 && 10 * d < 3 * m
  {
    if m > 0 {
      ThresholdAsProduct(d, m, 0.7);
    }
  }

  /** The 0.6 team threshold in integer form. */
  lemma TeamThresholdInIntegers(d: nat, m: nat)
    ensures ExceedsThreshold(d, m, 0.6) <==> m > 0 && 5 * d < 2 * m
  {
    if m > 0 {
      ThresholdAsProduct(d, m, 0.6);
    }
  }

  /** Whether candidate name `name` passes the similarity test for `query`:
      both are lower-cased before the distance is taken, the longer length
      is measured on the query and the name as given. */
  predicate Matches(query: string, name: string, threshold: real) {
    ExceedsThreshold(Distance(ToLower(query), ToLower(name)), Max(|query|, |name|), threshold)
  }

  /** A name equal to the query up to case always passes a threshold below 1,
      unless both are empty. */
  lemma SameNameMatches(query: string, name: string, threshold: real)
    requires ToLower(query) == ToLower(name) && |query| > 0 && threshold < 1.0
    ensures Matches(query, name, threshold)
  {
    DistanceToSelf(ToLower(query));
  }
}

=== FILE: metadata_cache.dfy ===
/** The league-metadata cache of the service (`getLeagueMetadata` in
    internal/service/fantasy.go) over the single-slot store: a snapshot older
    than a day, or none at all, is refetched; a failed fetch leaves the store
    untouched. Times are nanosecond counts and `now` is an input. */
module MetadataCache {
  import opened Wrappers
  import opened Models
  import opened MemoryRepository
  import EspnLeague

  const Hour: int := 60 * 60 * 1_000_000_000
  const Day: int := 24 * Hour

  /** `time.Since(lastUpdated) > 24h`: exactly one day old is still fresh. */
  predicate NeedsRefresh(repo: Repository, now: int) {
    repo.metadata.None? || now - repo.metadata.value.lastUpdated > Day
  }

  datatype CacheOutcome = CacheOutcome(result: Result<LeagueMetadata>, repo: Repository, fetched: bool)

  /** One lookup. `response` is what the provider would answer if asked;
      it is consulted only when the held snapshot needs a refresh. */
  function GetLeagueMetadata(repo: Repository, now: int, response: Result<LeagueResponse>): (r: CacheOutcome)
    ensures r.fetched <==> NeedsRefresh(repo, now)
    ensures !r.fetched ==> r.result == Ok(repo.metadata.value) && r.repo == repo
    ensures r.fetched && response.Err? ==>
      r.result == Err("fetching league metadata: " + response.error) && r.repo == repo
    ensures r.fetched && response.Ok? ==>
      && r.result.Ok?
      && r.result.value.lastUpdated == now
      && r.result.value.currentWeek == response.value.status.currentMatchupPeriod
      && GetMetadata(r.repo) == Some(r.result.value)
  {
    if NeedsRefresh(repo, now) then
      match EspnLeague.GetLeagueMetadata(response, now)
      case Err(e) => CacheOutcome(Err(e), repo, true)
      case Ok(m) => CacheOutcome(Ok(m), SaveMetadata(repo, m), true)
    else CacheOutcome(Ok(repo.metadata.value), repo, false)
  }

  /** The current week, through the cache. */
  function GetCurrentWeek(repo: Repository, now: int, response: Result<LeagueResponse>): (r: (Result<int>, Repository))
    ensures r.1 == GetLeagueMetadata(repo, now, response).repo
    ensures r.0.Ok? <==> GetLeagueMetadata(repo, now, response).result.Ok?
    ensures r.0.Ok? ==> r.0.value == GetLeagueMetadata(repo, now, response).result.value.currentWeek
    ensures r.0.Err? ==> r.0.error == GetLeagueMetadata(repo, now, response).result.error
  {
    var outcome := GetLeagueMetadata(repo, now, response);
    match outcome.result
    case Err(e) => (Err(e), outcome.repo)
    case Ok(m) => (Ok(m.currentWeek), outcome.repo)
  }

  /** One call of a run: the clock reading and the provider's answer. */
  datatype Call = Call(now: int, response: Result<LeagueResponse>)

  /** How many of `calls`, made in order from `repo`, reach the provider. */
  function Fetches(repo: Repository, calls: seq<Call>): nat
    decreases |calls|
  {
    if |calls| == 0 then 0
    else
      var outcome := GetLeagueMetadata(repo, calls[0].now, calls[0].response);
      (if outcome.fetched then 1 else 0) + Fetches(outcome.repo, calls[1..])
  }

  /** The store after `calls`. */
  function After(repo: Repository, calls: seq<Call>): Repository
    decreases |calls|
  {
    if |calls| == 0 then repo
    else
      var outcome := GetLeagueMetadata(repo, calls[0].now, calls[0].response);
      After(outcome.repo, calls[1..])
  }

  /** Once a snapshot stamped `t` is held, calls made no later than a day
      after `t` never reach the provider and leave the store as it was. */
  lemma {:induction false} NoRefetchWithinADay(repo: Repository, calls: seq<Call>)
    requires repo.metadata.Some?
    requires forall i :: 0 <= i < |calls| ==> calls[i].now - repo.metadata.value.lastUpdated <= Day
    ensures Fetches(repo, calls) == 0
    ensures After(repo, calls) == repo
    decreases |calls|
  {
    if |calls| > 0 {
      assert forall i :: 0 <= i < |calls| - 1 ==> calls[1..][i] == calls[i + 1];
      NoRefetchWithinADay(repo, calls[1..]);
    }
  }

  /** Two calls within a day from an empty store: one fetch. */
  lemma TwoCallsWithinADayFetchOnce(t: int, later: int, first: Result<LeagueResponse>, second: Result<LeagueResponse>)
    requires first.Ok?
    requires t <= later <= t + Day
    ensures Fetches(NewRepository(), [Call(t, first), Call(later, second)]) == 1
  {
    var calls := [Call(t, first), Call(later, second)];
    var o := GetLeagueMetadata(NewRepository(), t, first);
    assert calls[1..] == [Call(later, second)];
    NoRefetchWithinADay(o.repo, calls[1..]);
  }

  /** A call more than a day after the first successful one fetches again. */
  lemma SecondCallAfterADayFetchesAgain(t: int, later: int, first: Result<LeagueResponse>, second: Result<LeagueResponse>)
    requires first.Ok?
    requires later > t + Day
    ensures Fetches(NewRepository(), [Call(t, first), Call(later, second)]) == 2
  {
    var calls := [Call(t, first), Call(later, second)];
    var o := GetLeagueMetadata(NewRepository(), t, first);
    assert o.fetched && o.result.Ok? && o.repo.metadata == Some(o.result.value);
    var p := GetLeagueMetadata(o.repo, later, second);
    assert p.fetched;
    assert calls[1..] == [Call(later, second)];
    assert calls[1..][1..] == [];
    assert Fetches(p.repo, []) == 0;
    assert Fetches(o.repo, calls[1..]) == 1;
  }
}

=== FILE: models.dfy ===
/** The records of the league domain: the decoded provider responses and the
    values the reports are built from. Go's `float64` becomes `real`, times
    are nanosecond counts, and slices are sequences. */
module Models {

  // ---- Decoded provider responses ----

  datatype Stat = Stat(statSourceId: int, scoringPeriodId: int, appliedTotal: real)

  datatype Player = Player(
    id: int,
    fullName: string,
    defaultPositionId: int,
    proTeamId: int,
    percentOwned: real,
    stats: seq<Stat>,
    injuryStatus: string)

  datatype PlayerPoolEntry = PlayerPoolEntry(id: int, onTeamId: int, player: Player, appliedStatTotal: real)

  datatype RosterEntry = RosterEntry(poolEntry: PlayerPoolEntry, lineupSlotId: int)

  datatype RecordDetails = RecordDetails(
    wins: int,
    losses: int,
    ties: int,
    percentage: real,
    pointsFor: real,
    pointsAgainst: real)

  datatype Team = Team(
    id: int,
    abbreviation: string,
    name: string,
    playoffSeed: int,
    roster: seq<RosterEntry>,
    record: RecordDetails)

  datatype LeagueStatus = LeagueStatus(
    currentMatchupPeriod: int,
    finalScoringPeriod: int,
    firstScoringPeriod: int,
    isActive: bool)

  datatype LeagueResponse = LeagueResponse(
    id: int,
    scoringPeriodId: int,
    seasonId: int,
    status: LeagueStatus,
    teams: seq<Team>,
    settingsName: string)

  datatype TeamScore = TeamScore(
    teamId: int,
    totalPoints: real,
    totalPointsLive: real,
    totalProjectedPointsLive: real)

  datatype MatchupScore = MatchupScore(id: int, away: TeamScore, home: TeamScore, winner: string)

  datatype ProTeamInfo = ProTeamInfo(id: int, abbrev: string, byeWeek: int, name: string)

  // ---- Values the reports are built from ----

  datatype LeagueMetadata = LeagueMetadata(
    leagueId: int,
    name: string,
    currentWeek: int,
    currentScoringPeriod: int,
    seasonId: int,
    firstWeek: int,
    lastWeek: int,
    isActive: bool,
    lastUpdated: int)

  /** A team's line in the standings before it is ranked. */
  datatype TeamStanding = TeamStanding(
    teamId: int,
    teamName: string,
    abbreviation: string,
    wins: int,
    losses: int,
    ties: int,
    pointsFor: real,
    pointsAgainst: real,
    winPercentage: real,
    playoffSeed: int)

  /** A standing with the 1-based rank assigned after sorting. */
  datatype RankedStanding = RankedStanding(rank: int, standing: TeamStanding)

  /** One matchup of the week as the provider scores it. */
  datatype ScoreRecord = ScoreRecord(
    matchId: int,
    homeTeamId: int,
    awayTeamId: int,
    homeScore: real,
    awayScore: real,
    homeProjected: real,
    awayProjected: real,
    isCompleted: bool)

  datatype WhoHasResult = WhoHasResult(
    playerName: string,
    teamName: string,
    teamId: int,
    found: bool,
    percentOwned: real,
    position: string,
    proTeam: string,
    points: real,
    isProjected: bool,
    lineupSlot: string)

  datatype PlayerToMonitor = PlayerToMonitor(name: string, position: string, injuryStatus: string)

  datatype TeamMonitorReport = TeamMonitorReport(teamName: string, players: seq<PlayerToMonitor>)

  /** A matchup with team names resolved, as listed in the final-score report. */
  datatype Matchup = Matchup(homeTeam: string, awayTeam: string, homeScore: real, awayScore: real)

  datatype Category = HighScore | LowScore | BiggestWin | ClosestWin

  datatype Trophy = Trophy(category: Category, team: string, value: real)

  datatype FinalScoreReport = FinalScoreReport(matchups: seq<Matchup>, trophies: seq<Trophy>)

  datatype CloseGame = CloseGame(homeTeam: string, awayTeam: string, homeScore: real, awayScore: real, margin: real)

  datatype RosterPlayer = RosterPlayer(
    name: string,
    position: string,
    points: real,
    pointsLabel: string,
    isStarter: bool,
    lineupSlot: string,
    injuryStatus: string)

  datatype TeamRoster = TeamRoster(teamName: string, players: seq<RosterPlayer>)

  function Abs(x: real): (r: real)
    ensures r >= 0.0 && (r == x || r == -x)
  {
    if x < 0.0 then -x else x
  }
}

=== FILE: report_text.dfy ===
/** The report texts the service formats (internal/service/fantasy.go).
    Each report is built from pieces; the contracts state the decisions
    the text encodes: which line appears, which label is shown, and when a
    placeholder replaces the listing. */
module ReportText {
  import opened Text
  import opened Seqs
  import opened Models
  import opened ServiceTeams
  import opened EspnLeague
  import opened ScoreAggregation

  // ---- Standings ----

  const StandingsHeader := "\U{1F3C6} *Current Standings*\n\n"

  function StandingBlock(r: RankedStanding): string {
    var t := r.standing;
    Concat([
      IntToString(r.rank), ". *", t.teamName, "*\n",
      "   Record: ", IntToString(t.wins), "-", IntToString(t.losses), "-", IntToString(t.ties), "\n",
      "   Points For: ", Fixed2(t.pointsFor), "\n",
      "   Points Against: ", Fixed2(t.pointsAgainst), "\n\n"])
  }

  /** The header, then every team's block; the header alone for an empty league. */
  function StandingsText(ranked: seq<RankedStanding>): (r: string)
    ensures StandingsHeader <= r
    ensures |ranked| == 0 ==> r == StandingsHeader
    ensures forall i :: 0 <= i < |ranked| ==> Contains(r, StandingBlock(ranked[i]))
  {
    var blocks := Map(ranked, StandingBlock);
    HeadedConcatContains(StandingsHeader, blocks);
    StandingsHeader + Concat(blocks)
  }

  // ---- Current scores and matchups ----

  function WeekHeader(week: int, title: string): string {
    "\U{1F3C8} *Week " + IntToString(week) + " " + title + "*\n\n"
  }

  function VersusLine(s: ScoreRecord): (r: string)
    ensures |r| > 0 && r[0] == '*'
  {
    "*" + ReportTeamName(s.homeTeamId) + "* vs *" + ReportTeamName(s.awayTeamId) + "*\n"
  }

  function PairLine(caption: string, home: real, away: real): (r: string)
    ensures |caption| > 0 ==> |r| > 0 && r[0] == caption[0]
  {
    caption + Fixed2(home) + " - " + Fixed2(away)
  }

  /** A matchup in the current-scores report, one piece per write: the
      "(Final)" line is present exactly when the provider has declared a
      winner, between the projected line and the closing blank line. */
  function ScoreBlock(s: ScoreRecord): (parts: seq<string>)
    ensures |parts| == (if s.isCompleted then 5 else 4)
    ensures parts[0] == VersusLine(s)
    ensures parts[1] == PairLine("Current: ", s.homeScore, s.awayScore) + "\n"
    ensures parts[2] == PairLine("Projected: ", s.homeProjected, s.awayProjected) + "\n"
    ensures parts[3] == "(Final)\n" <==> s.isCompleted
    ensures parts[|parts| - 1] == "\n"
  {
    [VersusLine(s), PairLine("Current: ", s.homeScore, s.awayScore) + "\n",
     PairLine("Projected: ", s.homeProjected, s.awayProjected) + "\n"]
      + (if s.isCompleted then ["(Final)\n"] else []) + ["\n"]
  }

  /** The week's header, then every matchup's score block. */
  function CurrentScoresText(week: int, scores: seq<ScoreRecord>): (r: string)
    ensures WeekHeader(week, "Current Scores") <= r
    ensures |scores| == 0 ==> r == WeekHeader(week, "Current Scores")
    ensures forall i :: 0 <= i < |scores| ==> Contains(r, Concat(ScoreBlock(scores[i])))
  {
    var blocks := Map(scores, (s: ScoreRecord) => Concat(ScoreBlock(s)));
    HeadedConcatContains(WeekHeader(week, "Current Scores"), blocks);
    WeekHeader(week, "Current Scores") + Concat(blocks)
  }

  /** A matchup in the preview, one piece per write: the current score line
      appears only once some side has scored, followed by " (Final)" when
      the game is over. */
  function MatchupBlock(s: ScoreRecord): (parts: seq<string>)
    ensures |parts| >= 3 && parts[0] == VersusLine(s)
    ensures parts[1] == PairLine("Projected: ", s.homeProjected, s.awayProjected) + "\n"
    ensures |parts| > 3 <==> s.homeScore > 0.0 || s.awayScore > 0.0
    ensures |parts| > 3 ==> parts[2] == PairLine("Current: ", s.homeScore, s.awayScore)
    ensures |parts| > 3 ==> (parts[3] == " (Final)" <==> s.isCompleted)
    ensures parts[|parts| - 1] == "\n"
  {
    var current :=
      if s.homeScore > 0.0 || s.awayScore > 0.0 then
        [PairLine("Current: ", s.homeScore, s.awayScore)] + (if s.isCompleted then [" (Final)"] else []) + ["\n"]
      else [];
    [VersusLine(s), PairLine("Projected: ", s.homeProjected, s.awayProjected) + "\n"] + current + ["\n"]
  }

  /** A finished game in which neither side scored shows neither the
      current line nor " (Final)". */
  lemma ScorelessFinalShowsNoFinal(s: ScoreRecord)
    requires s.isCompleted && s.homeScore <= 0.0 && s.awayScore <= 0.0
    ensures MatchupBlock(s) == [VersusLine(s), PairLine("Projected: ", s.homeProjected, s.awayProjected) + "\n", "\n"]
    ensures " (Final)" !in MatchupBlock(s)
  {
    var parts := MatchupBlock(s);
    assert |parts| == 3;
    assert parts[0][0] == '*';
    assert parts[1][0] == 'P';
  }

  /** The week's header, then every matchup's preview block. */
  function MatchupsText(week: int, scores: seq<ScoreRecord>): (r: string)
    ensures WeekHeader(week, "Matchups") <= r
    ensures |scores| == 0 ==> r == WeekHeader(week, "Matchups")
    ensures forall i :: 0 <= i < |scores| ==> Contains(r, Concat(MatchupBlock(scores[i])))
  {
    var blocks := Map(scores, (s: ScoreRecord) => Concat(MatchupBlock(s)));
    HeadedConcatContains(WeekHeader(week, "Matchups"), blocks);
    WeekHeader(week, "Matchups") + Concat(blocks)
  }

  // ---- Who has ----

  const Separator := "━━━━━━━━━━━━━━━━\n"

  /** Bench and IR are shown as such; any other slot reads "Starting". */
  function SlotLabel(slot: string): (r: string)
    ensures r == "Starting" <==> slot != "Bench" && slot != "IR"
    ensures r != "Starting" ==> r == slot
  {
    if slot == "Bench" || slot == "IR" then slot else "Starting"
  }

  /** Positive points to two decimals; anything else is still to be decided. */
  function PointsText(points: real): (r: string)
    ensures r == "TBD" <==> points <= 0.0
    ensures points > 0.0 ==> r == Fixed2(points)
  {
    if points > 0.0 then
      FixedIsNotWord(points, "TBD");
      Fixed2(points)
    else "TBD"
  }

  function NotFoundText(query: string): string {
    "\U{1F50D} No player found matching '" + query + "'."
  }

  /** Who owns the player: the team and its slot label, or "Free Agent". */
  function OwnerParts(r: WhoHasResult): (parts: seq<string>)
    ensures 0 < |parts| && forall i :: 0 <= i < |parts| ==> |parts[i]| > 0 && parts[i][|parts[i]| - 1] == '\n'
    ensures parts[0] == "Free Agent\n" <==> r.teamId == 0
    ensures r.teamId != 0 ==> |parts| == 2 && parts[0] == "*" + r.teamName + "*\n"
    ensures r.teamId != 0 ==> parts[1] == SlotLabel(r.lineupSlot) + "\n"
  {
    var teamLine := "*" + r.teamName + "*\n";
    assert teamLine[0] == '*' && "Free Agent\n"[0] == 'F';
    if r.teamId != 0 then [teamLine, SlotLabel(r.lineupSlot) + "\n"] else ["Free Agent\n"]
  }

  /** The points piece, then " (Projected)" exactly for projected points. */
  function PointsParts(r: WhoHasResult): (parts: seq<string>)
    ensures " (Projected)" in parts <==> r.isProjected
    ensures 0 < |parts| && parts[0] == "\n" + PointsText(r.points) + " pts"
  {
    var points := "\n" + PointsText(r.points) + " pts";
    assert points[0] == '\n' && " (Projected)"[0] == ' ';
    [points] + (if r.isProjected then [" (Projected)"] else [])
  }

  /** The who-has reply in pieces: the not-found message alone, or the
      player line, the separator, the owner pieces, the points pieces and
      the ownership percentage. */
  function WhoHasParts(query: string, r: WhoHasResult): (parts: seq<string>)
    ensures !r.found ==> parts == [NotFoundText(query)]
    ensures r.found ==> |parts| == 3 + |OwnerParts(r)| + |PointsParts(r)|
    ensures r.found ==> parts[0] == "*" + r.playerName + "* (" + r.position + " - " + r.proTeam + ")\n"
    ensures r.found ==> parts[1] == Separator && parts[2..2 + |OwnerParts(r)|] == OwnerParts(r)
    ensures r.found ==> parts[|parts| - 1 - |PointsParts(r)|..|parts| - 1] == PointsParts(r)
    ensures r.found ==> parts[|parts| - 1] == "\n" + FixedPoint(r.percentOwned, 1) + "% Rostered"
  {
    if !r.found then [NotFoundText(query)]
    else
      var header := "*" + r.playerName + "* (" + r.position + " - " + r.proTeam + ")\n";
      var rostered := "\n" + FixedPoint(r.percentOwned, 1) + "% Rostered";
      var owner := OwnerParts(r);
      var parts := [header, Separator] + owner + PointsParts(r) + [rostered];
      assert parts[2..2 + |owner|] == owner;
      assert parts[|parts| - 1 - |PointsParts(r)|..|parts| - 1] == PointsParts(r);
      parts
  }

  /** The reply holds every piece of the who-has reply. */
  function WhoHasText(query: string, r: WhoHasResult): (t: string)
    ensures !r.found ==> t == NotFoundText(query)
    ensures forall i :: 0 <= i < |WhoHasParts(query, r)| ==> Contains(t, WhoHasParts(query, r)[i])
  {
    HeadedConcatContains("", WhoHasParts(query, r));
    assert "" + Concat(WhoHasParts(query, r)) == Concat(WhoHasParts(query, r));
    assert !r.found ==> Concat(WhoHasParts(query, r)) == Concat([]) + NotFoundText(query);
    Concat(WhoHasParts(query, r))
  }

  // ---- Players to monitor ----

  const NoPlayersToMonitor := "No players to monitor at this time."

  function MonitorHeader(week: int): string {
    "\U{1F691} *Week " + IntToString(week) + " Players to Monitor*\n\n"
  }

  function MonitorLine(p: PlayerToMonitor): string {
    "  • " + p.position + " " + p.name + " - " + p.injuryStatus + "\n"
  }

  function MonitorHeading(t: TeamMonitorReport): string {
    "*" + t.teamName + ":*\n"
  }

  /** A team's heading, then one line per watched player, then a blank line. */
  function MonitorBlock(t: TeamMonitorReport): (r: string)
    ensures |r| > 0 && r[|r| - 1] == '\n'
    ensures MonitorHeading(t) <= r
    ensures forall j :: 0 <= j < |t.players| ==> Contains(r, MonitorLine(t.players[j]))
  {
    var lines := Map(t.players, MonitorLine);
    TwoListingsContain(MonitorHeading(t), lines, "\n", []);
    assert MonitorHeading(t) + Concat(lines) + "\n" + Concat([]) == MonitorHeading(t) + Concat(lines) + "\n";
    assert forall j :: 0 <= j < |t.players| ==> MonitorLine(t.players[j]) in lines;
    MonitorHeading(t) + Concat(lines) + "\n"
  }

  /** The placeholder replaces the listing exactly when no team has a
      player to watch; otherwise every team's block, and so every watched
      player's line, appears after the header. */
  function MonitorText(week: int, teams: seq<TeamMonitorReport>): (r: string)
    ensures MonitorHeader(week) <= r
    ensures |teams| == 0 <==> r == MonitorHeader(week) + NoPlayersToMonitor
    ensures forall i :: 0 <= i < |teams| ==> Contains(r, MonitorBlock(teams[i]))
    ensures forall i, j :: 0 <= i < |teams| && 0 <= j < |teams[i].players| ==>
      Contains(r, MonitorLine(teams[i].players[j]))
  {
    if |teams| == 0 then
      HeadedConcatContains(MonitorHeader(week), [NoPlayersToMonitor]);
      assert Concat([NoPlayersToMonitor]) == NoPlayersToMonitor;
      MonitorHeader(week) + NoPlayersToMonitor
    else
      var blocks := Map(teams, MonitorBlock);
      var listing := Concat(blocks);
      HeadedConcatContains(MonitorHeader(week), blocks);
      BlocksCarryLines(MonitorHeader(week) + listing, teams);
      assert |listing| > 0 && listing[|listing| - 1] == '\n';
      assert (MonitorHeader(week) + listing)[|MonitorHeader(week) + listing| - 1] == '\n';
      assert (MonitorHeader(week) + NoPlayersToMonitor)[|MonitorHeader(week) + NoPlayersToMonitor| - 1] == '.';
      MonitorHeader(week) + listing
  }

  /** A text holding every team's block holds every watched player's line. */
  lemma BlocksCarryLines(text: string, teams: seq<TeamMonitorReport>)
    requires forall i :: 0 <= i < |teams| ==> Contains(text, MonitorBlock(teams[i]))
    ensures forall i, j :: 0 <= i < |teams| && 0 <= j < |teams[i].players| ==>
      Contains(text, MonitorLine(teams[i].players[j]))
  {
    forall i, j | 0 <= i < |teams| && 0 <= j < |teams[i].players|
      ensures Contains(text, MonitorLine(teams[i].players[j]))
    {
      ContainsWithin(text, MonitorBlock(teams[i]), MonitorLine(teams[i].players[j]));
    }
  }

  // ---- Team roster ----

  /** The unit follows the label unless the label is IR or BYE. */
  function PointsWithUnit(pointsLabel: string): (r: string)
    ensures r == pointsLabel <==> pointsLabel == "IR" || pointsLabel == "BYE"
    ensures r != pointsLabel ==> r == pointsLabel + " pts"
  {
    if pointsLabel != "IR" && pointsLabel != "BYE" then
      assert |pointsLabel + " pts"| > |pointsLabel|;
      pointsLabel + " pts"
    else pointsLabel
  }

  const InjuryAbbreviations: map<string, string> := map["QUESTIONABLE" := "Q", "DOUBTFUL" := "D", "OUT" := "O"]

  /** No suffix for a healthy, active or injured-reserve player; otherwise
      the status's abbreviation in parentheses, which is empty for a status
      outside the abbreviation table. */
  function InjurySuffix(status: string): (r: string)
    ensures r == "" <==> status == "" || status == "ACTIVE" || status == "INJURY_RESERVE"
    ensures status in InjuryAbbreviations ==> r == " (" + InjuryAbbreviations[status] + ")"
    ensures r != "" && status !in InjuryAbbreviations ==> r == " ()"
  {
    if status != "" && status != "ACTIVE" && status != "INJURY_RESERVE" then
      " (" + (if status in InjuryAbbreviations then InjuryAbbreviations[status] else "") + ")"
    else ""
  }

  function RosterLine(p: RosterPlayer): string {
    "▫️ " + p.position + " " + p.name + InjurySuffix(p.injuryStatus) + " - " + PointsWithUnit(p.pointsLabel) + "\n"
  }

  /** The lines of one section: starters (`starters`) or the bench. */
  function RosterSection(players: seq<RosterPlayer>, starters: bool): (lines: seq<string>)
    ensures forall l :: l in lines ==> exists i :: 0 <= i < |players| && players[i].isStarter == starters && l == RosterLine(players[i])
    ensures forall i :: 0 <= i < |players| && players[i].isStarter == starters ==> RosterLine(players[i]) in lines
  {
    var chosen := Filter(players, IsStarter, starters);
    var lines := Map(chosen, RosterLine);
    forall l | l in lines
      ensures exists i :: 0 <= i < |players| && players[i].isStarter == starters && l == RosterLine(players[i])
    {
      var k :| 0 <= k < |lines| && lines[k] == l;
      assert chosen[k] in players && IsStarter(chosen[k]) == starters;
      var i :| 0 <= i < |players| && players[i] == chosen[k];
    }
    forall i | 0 <= i < |players| && players[i].isStarter == starters
      ensures RosterLine(players[i]) in lines
    {
      assert IsStarter(players[i]) == starters;
      assert players[i] in chosen;
      var k :| 0 <= k < |chosen| && chosen[k] == players[i];
      assert lines[k] == RosterLine(players[i]);
    }
    lines
  }

  /** The two sections together list every player once. */
  lemma {:induction false} SectionsCoverRoster(players: seq<RosterPlayer>)
    ensures |RosterSection(players, true)| + |RosterSection(players, false)| == |players|
  {
    FilterPartition(players, IsStarter);
  }

  function RosterTitle(teamName: string): string {
    "\U{1F4CB} *" + teamName + "'s Roster*\n\n"
  }

  /** The title, then the starters' section and the bench's: every player
      of the roster has a line in the text. */
  function TeamRosterText(roster: TeamRoster): (r: string)
    ensures RosterTitle(roster.teamName) + "*Starting Lineup:*\n" <= r
    ensures forall i :: 0 <= i < |roster.players| ==> Contains(r, RosterLine(roster.players[i]))
  {
    var lead := RosterTitle(roster.teamName) + "*Starting Lineup:*\n";
    var starters := RosterSection(roster.players, true);
    var bench := RosterSection(roster.players, false);
    TwoListingsContain(lead, starters, "\n*Bench:*\n", bench);
    lead + Concat(starters) + "\n*Bench:*\n" + Concat(bench)
  }

  // ---- Final scores and trophies ----

  function FinalMatchupLine(m: Matchup): string {
    m.homeTeam + " " + Fixed2(m.homeScore) + " - " + Fixed2(m.awayScore) + " " + m.awayTeam + "\n"
  }

  function TrophyLine(t: Trophy): string {
    match t.category
    case HighScore => "Highest Score: " + t.team + " (" + Fixed2(t.value) + ")\n"
    case LowScore => "Lowest Score: " + t.team + " (" + Fixed2(t.value) + ")\n"
    case BiggestWin => "Biggest Win: " + t.team + " (Margin: " + Fixed2(t.value) + ")\n"
    case ClosestWin => "Closest Win: " + t.team + " (Margin: " + Fixed2(t.value) + ")\n"
  }

  const FinalScoresHeader := "\U{1F4CA} *Final Scores:*\n\n"
  const TrophiesHeader := "\n\U{1F3C6} *Trophies:*\n"

  /** Sorting the matchups keeps the line of every one of them. */
  lemma OrderedLinesCoverMatchups(matchups: seq<Matchup>)
    ensures forall i :: 0 <= i < |matchups| ==> FinalMatchupLine(matchups[i]) in Map(OrderByTotal(matchups), FinalMatchupLine)
  {
    var ordered := OrderByTotal(matchups);
    forall i | 0 <= i < |matchups|
      ensures FinalMatchupLine(matchups[i]) in Map(ordered, FinalMatchupLine)
    {
      assert matchups[i] in multiset(ordered);
      var k :| 0 <= k < |ordered| && ordered[k] == matchups[i];
      assert Map(ordered, FinalMatchupLine)[k] == FinalMatchupLine(matchups[i]);
    }
  }

  /** The matchups by non-increasing combined score, then the trophies:
      every matchup and every trophy has its line in the text. */
  function FinalScoreText(report: FinalScoreReport): (r: string)
    ensures FinalScoresHeader <= r
    ensures forall i :: 0 <= i < |report.matchups| ==> Contains(r, FinalMatchupLine(report.matchups[i]))
    ensures forall i :: 0 <= i < |report.trophies| ==> Contains(r, TrophyLine(report.trophies[i]))
    ensures exists ordered ::
      && ListedByTotal(report.matchups, ordered)
      && r == FinalScoresHeader + Concat(Map(ordered, FinalMatchupLine)) + TrophiesHeader + Concat(Map(report.trophies, TrophyLine))
  {
    var ordered := OrderByTotal(report.matchups);
    var lines := Map(ordered, FinalMatchupLine);
    TwoListingsContain(FinalScoresHeader, lines, TrophiesHeader, Map(report.trophies, TrophyLine));
    OrderedLinesCoverMatchups(report.matchups);
    FinalScoresHeader + Concat(lines) + TrophiesHeader + Concat(Map(report.trophies, TrophyLine))
  }

  // ---- Monday night close games ----

  const CloseGamesHeader := "\U{1F3C8} *Monday Night Watch List*\n\n"
  const NoCloseGames := "No close games this week. All outcomes are likely decided."

  function CloseGameLine(g: CloseGame): (r: string)
    ensures |r| > 0 && r[|r| - 1] == '\n'
  {
    g.homeTeam + " " + Fixed2(g.homeScore) + " - " + Fixed2(g.awayScore) + " " + g.awayTeam
      + " (Margin: " + Fixed2(g.margin) + ")\n"
  }

  /** The placeholder replaces the listing exactly when there is no close
      game; otherwise every game's line appears after the header. */
  function CloseGamesText(games: seq<CloseGame>): (r: string)
    ensures CloseGamesHeader <= r
    ensures |games| == 0 <==> r == CloseGamesHeader + NoCloseGames
    ensures forall i :: 0 <= i < |games| ==> Contains(r, CloseGameLine(games[i]))
  {
    if |games| == 0 then
      HeadedConcatContains(CloseGamesHeader, [NoCloseGames]);
      assert Concat([NoCloseGames]) == NoCloseGames;
      CloseGamesHeader + NoCloseGames
    else
      var listing := Concat(Map(games, CloseGameLine));
      HeadedConcatContains(CloseGamesHeader, Map(games, CloseGameLine));
      assert |listing| > 0 && listing[|listing| - 1] == '\n';
      assert (CloseGamesHeader + listing)[|CloseGamesHeader + listing| - 1] == '\n';
      assert (CloseGamesHeader + NoCloseGames)[|CloseGamesHeader + NoCloseGames| - 1] == '.';
      CloseGamesHeader + listing
  }
}

=== FILE: repository.dfy ===
/** The in-memory metadata store (internal/repository/memory/repository.go):
    one optional slot holding the most recently saved league metadata. */
module MemoryRepository {
  import opened Wrappers
  import opened Models

  datatype Repository = Repository(metadata: Option<LeagueMetadata>)

  /** A new store holds nothing. */
  function NewRepository(): (r: Repository)
    ensures r.metadata.None?
  {
    Repository(None)
  }

  /** Saving replaces whatever was held. */
  function SaveMetadata(repo: Repository, metadata: LeagueMetadata): (r: Repository)
    ensures GetMetadata(r) == Some(metadata)
  {
    Repository(Some(metadata))
  }

  function GetMetadata(repo: Repository): Option<LeagueMetadata> {
    repo.metadata
  }

  /** The store's operations; reads leave the store as it was. */
  datatype Op = Save(metadata: LeagueMetadata) | Get

  function Apply(repo: Repository, op: Op): (r: Repository)
    ensures op.Get? ==> r == repo
  {
    match op
    case Save(m) => SaveMetadata(repo, m)
    case Get => repo
  }

  /** The store after running `ops` from a new store. */
  function Replay(ops: seq<Op>): Repository
  {
    if |ops| == 0 then NewRepository() else Apply(Replay(ops[..|ops| - 1]), ops[|ops| - 1])
  }

  /** Nothing but reads follow position `i`. */
  predicate OnlyReadsAfter(ops: seq<Op>, i: int) {
    forall j :: 0 <= j < |ops| && i < j ==> ops[j].Get?
  }

  /** Reference: the metadata of the last save in `ops`, scanning from the end. */
  function LastSaved(ops: seq<Op>): (r: Option<LeagueMetadata>)
    ensures r.None? <==> OnlyReadsAfter(ops, -1)
    ensures r.Some? ==> exists i :: 0 <= i < |ops| && ops[i] == Save(r.value) && OnlyReadsAfter(ops, i)
  {
    if |ops| == 0 then None
    else if ops[|ops| - 1].Save? then
      assert OnlyReadsAfter(ops, |ops| - 1);
      Some(ops[|ops| - 1].metadata)
    else
      var init := ops[..|ops| - 1];
      var r := LastSaved(init);
      assert forall i :: 0 <= i < |init| ==> init[i] == ops[i];
      assert forall i :: -1 <= i < |init| && OnlyReadsAfter(init, i) ==> OnlyReadsAfter(ops, i);
      r
  }

  /** A read returns exactly what the last save stored, or nothing before any save. */
  lemma {:induction false} ReadReturnsLastSave(ops: seq<Op>)
    ensures GetMetadata(Replay(ops)) == LastSaved(ops)
  {
    if |ops| > 0 {
      ReadReturnsLastSave(ops[..|ops| - 1]);
    }
  }
}

=== FILE: scheduled_replies.dfy ===
/** Scheduled reports against on-demand commands: every job of the
    weekly table sends the same text as the chat command for the same
    report (internal/scheduler/scheduler.go against internal/bot/handlers.go). */
module ScheduledReplies {
  import opened Wrappers
  import opened Text
  import opened FantasyService
  import opened Scheduler
  import opened BotHandlers

  /** The command that asks for the same operation on demand. */
  function CommandFor(t: Task): string {
    match t
    case SendCloseScores => "mondaynight"
    case SendScoreboard => "scores"
    case SendTrophies => "finalscore"
    case SendStandings => "standings"
    case SendMatchups => "matchup"
    case SendPlayersToMonitor => "monitor"
  }

  /** A scheduled job and the matching command produce the same text when
      the operation succeeds. */
  lemma ScheduledMatchesOnDemand(t: Task, args: string, service: Request -> Result<string>)
    requires service(TaskRequest(t)).Ok?
    ensures Fire(t, service) == [HandleCommand(CommandFor(t), args, service).text]
  {
    var c := CommandFor(t);
    assert ToLower(c) == c;
    assert Dispatch(c, args).Call? && Dispatch(c, args).request == TaskRequest(t) by {
      match t
      case SendCloseScores =>
      case SendScoreboard =>
      case SendTrophies =>
      case SendStandings =>
      case SendMatchups =>
      case SendPlayersToMonitor =>
    }
  }
}

=== FILE: scheduler.dfy ===
/** The weekly job table and its registration (internal/scheduler/scheduler.go).
    Times are wall-clock times in one zone; the timer loop itself is not
    modelled, only which report each (weekday, time) slot fires, the
    register-then-start sequence, and what each job sends. */
module Scheduler {
  import opened Wrappers
  import opened FantasyService

  datatype Weekday = Sunday | Monday | Tuesday | Wednesday | Thursday | Friday | Saturday

  datatype AtTime = AtTime(hour: nat, minute: nat)

  datatype Task = SendCloseScores | SendScoreboard | SendTrophies | SendStandings | SendMatchups | SendPlayersToMonitor

  datatype Job = Job(name: string, days: set<Weekday>, times: seq<AtTime>, task: Task)

  /** The jobs in registration order. */
  const Jobs: seq<Job> := [
    Job("close scores", {Monday}, [AtTime(17, 30)], SendCloseScores),
    Job("scoreboard", {Monday, Tuesday, Friday}, [AtTime(7, 30)], SendScoreboard),
    Job("trophies", {Tuesday}, [AtTime(7, 30)], SendTrophies),
    Job("standings", {Wednesday}, [AtTime(7, 30)], SendStandings),
    Job("matchups", {Thursday}, [AtTime(18, 30)], SendMatchups),
    Job("players to monitor", {Sunday}, [AtTime(7, 30)], SendPlayersToMonitor),
    Job("Sunday scoreboard", {Sunday}, [AtTime(15, 0), AtTime(19, 0)], SendScoreboard)
  ]

  /** The tasks the table fires at a slot. */
  function TasksAt(day: Weekday, time: AtTime): set<Task> {
    set i | 0 <= i < |Jobs| && day in Jobs[i].days && time in Jobs[i].times :: Jobs[i].task
  }

  /** The weekly timetable, day by day. */
  function Timetable(day: Weekday, time: AtTime): set<Task> {
    match day
    case Monday =>
      (if time == AtTime(7, 30) then {SendScoreboard} else {}) + (if time == AtTime(17, 30) then {SendCloseScores} else {})
    case Tuesday => if time == AtTime(7, 30) then {SendScoreboard, SendTrophies} else {}
    case Wednesday => if time == AtTime(7, 30) then {SendStandings} else {}
    case Thursday => if time == AtTime(18, 30) then {SendMatchups} else {}
    case Friday => if time == AtTime(7, 30) then {SendScoreboard} else {}
    case Saturday => {}
    case Sunday =>
      (if time == AtTime(7, 30) then {SendPlayersToMonitor} else {})
        + (if time == AtTime(15, 0) || time == AtTime(19, 0) then {SendScoreboard} else {})
  }

  /** The index of the job that puts `t` in the timetable's slot. */
  function Witness(day: Weekday, time: AtTime, t: Task): nat {
    match t
    case SendCloseScores => 0
    case SendScoreboard => if day == Sunday then 6 else 1
    case SendTrophies => 2
    case SendStandings => 3
    case SendMatchups => 4
    case SendPlayersToMonitor => 5
  }

  /** The job table fires exactly the timetable. */
  lemma JobsFollowTimetable(day: Weekday, time: AtTime)
    ensures TasksAt(day, time) == Timetable(day, time)
  {
    forall t | t in Timetable(day, time)
      ensures t in TasksAt(day, time)
    {
      var k := Witness(day, time, t);
      assert 0 <= k < |Jobs| && day in Jobs[k].days && time in Jobs[k].times && Jobs[k].task == t;
    }
  }

  /** Tuesday 07:30 sends both the scoreboard and the trophies; Saturday nothing. */
  lemma TuesdayMorningAndSaturday(time: AtTime)
    ensures TasksAt(Tuesday, AtTime(7, 30)) == {SendScoreboard, SendTrophies}
    ensures TasksAt(Saturday, time) == {}
  {
    JobsFollowTimetable(Tuesday, AtTime(7, 30));
    JobsFollowTimetable(Saturday, time);
  }

  // ---- Registration ----

  /** The outcome of `Start`: the jobs registered, whether the scheduler
      was started, and the error returned. */
  datatype StartOutcome = StartOutcome(registered: seq<Job>, started: bool, error: Option<string>)

  /** Registers `jobs` in order until one fails; `register` gives each
      registration's error, if any. */
  function RegisterAll(jobs: seq<Job>, register: Job -> Option<string>): (r: StartOutcome)
    ensures !r.started <==> exists i :: 0 <= i < |jobs| && register(jobs[i]).Some?
    ensures r.started ==> r.registered == jobs && r.error.None?
    ensures !r.started ==>
      var k := |r.registered|;
      && k < |jobs|
      && r.registered == jobs[..k]
      && register(jobs[k]).Some?
      && (forall j :: 0 <= j < k ==> register(jobs[j]).None?)
      && r.error == Some("failed to create " + jobs[k].name + " job: " + register(jobs[k]).value)
    decreases |jobs|
  {
    if |jobs| == 0 then StartOutcome([], true, None)
    else match register(jobs[0])
      case Some(e) => StartOutcome([], false, Some("failed to create " + jobs[0].name + " job: " + e))
      case None =>
        var rest := RegisterAll(jobs[1..], register);
        assert forall i :: 0 <= i < |jobs| - 1 ==> jobs[1..][i] == jobs[i + 1];
        if rest.started then StartOutcome([jobs[0]] + rest.registered, true, None)
        else
          var k := |rest.registered|;
          assert jobs[1..][k] == jobs[k + 1];
          assert [jobs[0]] + jobs[1..][..k] == jobs[..k + 1];
          StartOutcome([jobs[0]] + rest.registered, false, rest.error)
  }

  /** Starting registers the table's jobs, stopping at the first failure;
      the scheduler starts only after all seven succeed. */
  function Start(register: Job -> Option<string>): (r: StartOutcome)
    ensures r.started <==> forall i :: 0 <= i < |Jobs| ==> register(Jobs[i]).None?
    ensures r.started ==> |r.registered| == 7
  {
    RegisterAll(Jobs, register)
  }

  // ---- Job bodies ----

  /** The service operation each job runs. */
  function TaskRequest(t: Task): Request {
    match t
    case SendCloseScores => CloseGames
    case SendScoreboard => Scores
    case SendTrophies => FinalScores
    case SendStandings => Standings
    case SendMatchups => Matchups
    case SendPlayersToMonitor => Monitor
  }

  /** The messages a job hands to the sender: the service's text when it
      succeeds, nothing when it fails. The sender's own result is not
      looked at. */
  function Fire(t: Task, service: Request -> Result<string>): (sent: seq<string>)
    ensures |sent| <= 1
    ensures service(TaskRequest(t)).Ok? ==> sent == [service(TaskRequest(t)).value]
    ensures sent == [] <==> service(TaskRequest(t)).Err?
  {
    match service(TaskRequest(t))
    case Ok(text) => [text]
    case Err(_) => []
  }
}

=== FILE: score_aggregation.dfy ===
/** Trophies, matchup ordering and close games (`processScores`,
    `formatFinalScoreReport`'s sort and `findCloseGames` in
    internal/service/fantasy.go), over the score records of one week. */
module ScoreAggregation {
  import opened Seqs
  import opened Sorting
  import opened Models
  import opened ServiceTeams

  /** Go's `math.MaxFloat64`, (2^53 - 1) * 2^971, the trophies' sentinels. */
  const MaxFloat64: real := 179769313486231570814527423731704356798070567525844996598917476803157260780028538760589558632766878171540458953514382464234321326889464182768467546703537516986049910576551282076245490090389328944075868508455133942304583236903222948165808559332123348274797826204144723168738177180919299881250404026184124858368.0

  /** A running trophy holder: the team and the value it holds the trophy with. */
  datatype Leader = Leader(team: string, value: real)

  datatype Extremes = Extremes(high: Leader, low: Leader, biggest: Leader, closest: Leader)

  const Unset := Extremes(Leader("", -MaxFloat64), Leader("", MaxFloat64), Leader("", -MaxFloat64), Leader("", MaxFloat64))

  function Margin(s: ScoreRecord): (r: real)
    ensures r >= 0.0 && (r == s.homeScore - s.awayScore || r == s.awayScore - s.homeScore)
  {
    Abs(s.homeScore - s.awayScore)
  }

  /** The side credited with a record's margin: home only when it scored
      strictly more, so an exact tie is credited to the away team. */
  function WinnerName(s: ScoreRecord): (r: string)
    ensures s.homeScore > s.awayScore ==> r == ReportTeamName(s.homeTeamId)
    ensures s.homeScore <= s.awayScore ==> r == ReportTeamName(s.awayTeamId)
  {
    if s.homeScore > s.awayScore then ReportTeamName(s.homeTeamId) else ReportTeamName(s.awayTeamId)
  }

  /** One iteration of the Go loop: home is checked before away for the
      high and low scores, and a later value replaces the holder only when
      strictly better. */
  function Step(e: Extremes, s: ScoreRecord): (r: Extremes)
    ensures r.high.value >= e.high.value && r.high.value >= s.homeScore && r.high.value >= s.awayScore
    ensures r.high == e.high || r.high == HomeSide(s) || r.high == AwaySide(s)
    ensures r.low.value <= e.low.value && r.low.value <= s.homeScore && r.low.value <= s.awayScore
    ensures r.low == e.low || r.low == HomeSide(s) || r.low == AwaySide(s)
    ensures r.biggest.value >= e.biggest.value && r.biggest.value >= Margin(s)
    ensures r.biggest == e.biggest || r.biggest == MarginSide(s)
    ensures r.closest.value <= e.closest.value && r.closest.value <= Margin(s)
    ensures r.closest == e.closest || r.closest == MarginSide(s)
  {
    var home := ReportTeamName(s.homeTeamId);
    var away := ReportTeamName(s.awayTeamId);
    var high := if s.homeScore > e.high.value then Leader(home, s.homeScore) else e.high;
    var high := if s.awayScore > high.value then Leader(away, s.awayScore) else high;
    var low := if s.homeScore < e.low.value then Leader(home, s.homeScore) else e.low;
    var low := if s.awayScore < low.value then Leader(away, s.awayScore) else low;
    var margin := Margin(s);
    var biggest := if margin > e.biggest.value then Leader(WinnerName(s), margin) else e.biggest;
    var closest := if margin < e.closest.value then Leader(WinnerName(s), margin) else e.closest;
    Extremes(high, low, biggest, closest)
  }

  // ---- Reference definitions ----

  function HomeSide(s: ScoreRecord): Leader {
    Leader(ReportTeamName(s.homeTeamId), s.homeScore)
  }

  function AwaySide(s: ScoreRecord): Leader {
    Leader(ReportTeamName(s.awayTeamId), s.awayScore)
  }

  /** Every team score of the week in scan order: home, then away, record by record. */
  function Sides(scores: seq<ScoreRecord>): (r: seq<Leader>)
    ensures |r| == 2 * |scores|
    ensures forall i :: 0 <= i < |scores| ==> r[2 * i] == HomeSide(scores[i]) && r[2 * i + 1] == AwaySide(scores[i])
  {
    if |scores| == 0 then []
    else
      var init := Sides(scores[..|scores| - 1]);
      var last := scores[|scores| - 1];
      assert forall i :: 0 <= i < |scores| - 1 ==> scores[..|scores| - 1][i] == scores[i];
      init + [HomeSide(last)] + [AwaySide(last)]
  }

  /** Side `k` of the week is one of record `k / 2`'s two sides. */
  lemma SideOfRecord(scores: seq<ScoreRecord>, k: nat)
    requires k < |Sides(scores)|
    ensures Sides(scores)[k] == HomeSide(scores[k / 2]) || Sides(scores)[k] == AwaySide(scores[k / 2])
  {
    var i := k / 2;
    assert k == 2 * i || k == 2 * i + 1;
  }

  function MarginSide(s: ScoreRecord): Leader {
    Leader(WinnerName(s), Margin(s))
  }

  /** A drawn record's zero margin is credited to the away team. */
  lemma ZeroMarginGoesToAway(s: ScoreRecord)
    ensures s.homeScore == s.awayScore ==> MarginSide(s).team == ReportTeamName(s.awayTeamId) && MarginSide(s).value == 0.0
  {
  }

  /** Every record's margin, credited to home when home scored strictly
      more and to away otherwise. */
  function Margins(scores: seq<ScoreRecord>): (r: seq<Leader>)
    ensures |r| == |scores|
    ensures forall i :: 0 <= i < |scores| ==> r[i].value == Margin(scores[i])
    ensures forall i :: 0 <= i < |scores| && scores[i].homeScore > scores[i].awayScore ==>
      r[i].team == ReportTeamName(scores[i].homeTeamId)
    ensures forall i :: 0 <= i < |scores| && scores[i].homeScore <= scores[i].awayScore ==>
      r[i].team == ReportTeamName(scores[i].awayTeamId)
    ensures forall i :: 0 <= i < |scores| ==> r[i] == MarginSide(scores[i])
  {
    Map(scores, MarginSide)
  }

  /** `a` strictly beats `b`: greater when `above`, smaller otherwise. */
  predicate Beats(a: real, b: real, above: bool) {
    if above then a > b else a < b
  }

  /** The scan of one trophy: a later item replaces the holder only when it
      strictly beats it. */
  function Best(items: seq<Leader>, init: Leader, above: bool): Leader {
    if |items| == 0 then init
    else
      var holder := Best(items[..|items| - 1], init, above);
      var x := items[|items| - 1];
      if Beats(x.value, holder.value, above) then x else holder
  }

  /** `b` is the first item with a value no other item beats. */
  ghost predicate IsFirstBest(items: seq<Leader>, b: Leader, above: bool) {
    exists k :: 0 <= k < |items| && items[k] == b
      && (forall j :: 0 <= j < |items| ==> !Beats(items[j].value, b.value, above))
      && (forall j :: 0 <= j < k ==> items[j].value != b.value)
  }

  /** When every item beats the sentinel, the scan keeps the first optimal item. */
  lemma {:induction false} BestIsFirstOptimum(items: seq<Leader>, init: Leader, above: bool)
    requires forall i :: 0 <= i < |items| ==> Beats(items[i].value, init.value, above)
    ensures |items| == 0 ==> Best(items, init, above) == init
    ensures |items| > 0 ==> IsFirstBest(items, Best(items, init, above), above)
  {
    if |items| > 0 {
      var n := |items| - 1;
      var prefix := items[..n];
      var x := items[n];
      assert forall i :: 0 <= i < n ==> prefix[i] == items[i];
      BestIsFirstOptimum(prefix, init, above);
      var holder := Best(prefix, init, above);
      if n == 0 {
        assert Best(items, init, above) == x;
      } else {
        var k :| 0 <= k < n && prefix[k] == holder
          && (forall j :: 0 <= j < n ==> !Beats(prefix[j].value, holder.value, above))
          && (forall j :: 0 <= j < k ==> prefix[j].value != holder.value);
        if Beats(x.value, holder.value, above) {
          assert Best(items, init, above) == x;
          assert forall j :: 0 <= j < n ==> items[j].value != x.value && !Beats(items[j].value, x.value, above);
        } else {
          assert Best(items, init, above) == holder;
          assert items[k] == holder;
        }
      }
    }
  }

  /** One more item: it takes over exactly when it beats the holder. */
  lemma BestAppend(items: seq<Leader>, x: Leader, init: Leader, above: bool)
    ensures Best(items + [x], init, above)
         == if Beats(x.value, Best(items, init, above).value, above) then x else Best(items, init, above)
  {
    assert (items + [x])[..|items|] == items;
  }

  lemma SidesAppend(scores: seq<ScoreRecord>)
    requires |scores| > 0
    ensures Sides(scores) == Sides(scores[..|scores| - 1]) + [HomeSide(scores[|scores| - 1])] + [AwaySide(scores[|scores| - 1])]
  {
  }

  /** The Go loop over the week. Its high and low scores are the reference
      scans over all sides, and its biggest and closest wins the reference
      scans over all margins. */
  function Scan(scores: seq<ScoreRecord>): (r: Extremes)
    ensures r.high == Best(Sides(scores), Unset.high, true)
    ensures r.low == Best(Sides(scores), Unset.low, false)
    ensures r.biggest == Best(Margins(scores), Unset.biggest, true)
    ensures r.closest == Best(Margins(scores), Unset.closest, false)
  {
    if |scores| == 0 then Unset
    else
      var prev := Scan(scores[..|scores| - 1]);
      StepExtendsSides(scores, prev.high, Step(prev, scores[|scores| - 1]).high, Unset.high, true);
      StepExtendsSides(scores, prev.low, Step(prev, scores[|scores| - 1]).low, Unset.low, false);
      StepExtendsMargins(scores, prev);
      Step(prev, scores[|scores| - 1])
  }

  /** One loop step extends a reference scan over the sides (the high
      score when `above`, the low otherwise) by the record's home side,
      then its away side. */
  lemma StepExtendsSides(scores: seq<ScoreRecord>, holder: Leader, next: Leader, init: Leader, above: bool)
    requires |scores| > 0
    requires holder == Best(Sides(scores[..|scores| - 1]), init, above)
    requires var s := scores[|scores| - 1];
      var h := if Beats(s.homeScore, holder.value, above) then HomeSide(s) else holder;
      next == if Beats(s.awayScore, h.value, above) then AwaySide(s) else h
    ensures next == Best(Sides(scores), init, above)
  {
    var n := |scores| - 1;
    var sides := Sides(scores[..n]);
    SidesAppend(scores);
    BestAppend(sides, HomeSide(scores[n]), init, above);
    BestAppend(sides + [HomeSide(scores[n])], AwaySide(scores[n]), init, above);
  }

  /** One loop step extends the reference biggest and closest scans by the
      record's margin. */
  lemma StepExtendsMargins(scores: seq<ScoreRecord>, prev: Extremes)
    requires |scores| > 0
    requires prev.biggest == Best(Margins(scores[..|scores| - 1]), Unset.biggest, true)
    requires prev.closest == Best(Margins(scores[..|scores| - 1]), Unset.closest, false)
    ensures Step(prev, scores[|scores| - 1]).biggest == Best(Margins(scores), Unset.biggest, true)
    ensures Step(prev, scores[|scores| - 1]).closest == Best(Margins(scores), Unset.closest, false)
  {
    var n := |scores| - 1;
    assert Margins(scores) == Margins(scores[..n]) + [MarginSide(scores[n])];
    BestAppend(Margins(scores[..n]), MarginSide(scores[n]), Unset.biggest, true);
    BestAppend(Margins(scores[..n]), MarginSide(scores[n]), Unset.closest, false);
  }

  // ---- processScores ----

  function ToMatchup(s: ScoreRecord): Matchup {
    Matchup(ReportTeamName(s.homeTeamId), ReportTeamName(s.awayTeamId), s.homeScore, s.awayScore)
  }

  /** The four trophies in report order. */
  function Trophies(high: Leader, low: Leader, biggest: Leader, closest: Leader): seq<Trophy> {
    [Trophy(HighScore, high.team, high.value), Trophy(LowScore, low.team, low.value),
     Trophy(BiggestWin, biggest.team, biggest.value), Trophy(ClosestWin, closest.team, closest.value)]
  }

  /** The final-score report: the matchups position by position and the
      four trophies in order, each the reference scan of its category. */
  function ProcessScores(scores: seq<ScoreRecord>): (r: FinalScoreReport)
    ensures |r.matchups| == |scores| && forall i :: 0 <= i < |scores| ==> r.matchups[i] == ToMatchup(scores[i])
    ensures r.trophies == Trophies(Best(Sides(scores), Unset.high, true), Best(Sides(scores), Unset.low, false),
                                   Best(Margins(scores), Unset.biggest, true), Best(Margins(scores), Unset.closest, false))
  {
    var e := Scan(scores);
    FinalScoreReport(Map(scores, ToMatchup), Trophies(e.high, e.low, e.biggest, e.closest))
  }

  /** With no records every trophy keeps its sentinel and names no team. */
  lemma NoScoresKeepSentinels()
    ensures ProcessScores([]).matchups == []
    ensures ProcessScores([]).trophies ==
      [Trophy(HighScore, "", -MaxFloat64), Trophy(LowScore, "", MaxFloat64),
       Trophy(BiggestWin, "", -MaxFloat64), Trophy(ClosestWin, "", MaxFloat64)]
  {
  }

  /** Scores a float64 can hold, with a margin that does not overflow. */
  predicate Finite(s: ScoreRecord) {
    -MaxFloat64 < s.homeScore < MaxFloat64 && -MaxFloat64 < s.awayScore < MaxFloat64 && Margin(s) < MaxFloat64
  }

  /** On finite records the high and low scores are extremes: each holder's
      value is attained by its team and no other score beats it; the first
      such side wins ties. */
  lemma ScoreTrophiesAreExtremes(scores: seq<ScoreRecord>)
    requires |scores| > 0
    requires forall i :: 0 <= i < |scores| ==> Finite(scores[i])
    ensures IsFirstBest(Sides(scores), Best(Sides(scores), Unset.high, true), true)
    ensures IsFirstBest(Sides(scores), Best(Sides(scores), Unset.low, false), false)
  {
    SidesAreFinite(scores);
    BestIsFirstOptimum(Sides(scores), Unset.high, true);
    BestIsFirstOptimum(Sides(scores), Unset.low, false);
  }

  lemma SidesAreFinite(scores: seq<ScoreRecord>)
    requires forall i :: 0 <= i < |scores| ==> Finite(scores[i])
    ensures forall k :: 0 <= k < |Sides(scores)| ==> -MaxFloat64 < Sides(scores)[k].value < MaxFloat64
  {
    forall k | 0 <= k < |Sides(scores)|
      ensures -MaxFloat64 < Sides(scores)[k].value < MaxFloat64
    {
      SideOfRecord(scores, k);
      assert Finite(scores[k / 2]);
    }
  }

  /** On finite records the biggest and closest wins are extremes: no other
      margin beats the holder's, and the first such record wins ties. */
  lemma WinTrophiesAreExtremes(scores: seq<ScoreRecord>)
    requires |scores| > 0
    requires forall i :: 0 <= i < |scores| ==> Finite(scores[i])
    ensures IsFirstBest(Margins(scores), Best(Margins(scores), Unset.biggest, true), true)
    ensures IsFirstBest(Margins(scores), Best(Margins(scores), Unset.closest, false), false)
  {
    BestIsFirstOptimum(Margins(scores), Unset.biggest, true);
    BestIsFirstOptimum(Margins(scores), Unset.closest, false);
  }

  /** Two records, home 1 v away 2 at 10-20 and home 3 v away 4 at 30-25:
      team 3 has the high score, team 1 the low, team 2 the biggest win by
      10 and team 3 the closest by 5. */
  lemma TwoMatchupExample()
    ensures var report := ProcessScores([ScoreRecord(1, 1, 2, 10.0, 20.0, 0.0, 0.0, true),
                                          ScoreRecord(2, 3, 4, 30.0, 25.0, 0.0, 0.0, true)]);
      report.trophies == [Trophy(HighScore, "Megatron's Ghurl", 30.0), Trophy(LowScore, "I Weigh Less Than Omar", 10.0),
                          Trophy(BiggestWin, "Coach Dad", 10.0), Trophy(ClosestWin, "Megatron's Ghurl", 5.0)]
  {
    var a := ScoreRecord(1, 1, 2, 10.0, 20.0, 0.0, 0.0, true);
    var b := ScoreRecord(2, 3, 4, 30.0, 25.0, 0.0, 0.0, true);
    assert [a, b][..1] == [a] && [a][..0] == [];
    var first := Step(Unset, a);
    assert first == Extremes(Leader("Coach Dad", 20.0), Leader("I Weigh Less Than Omar", 10.0),
                             Leader("Coach Dad", 10.0), Leader("Coach Dad", 10.0));
    assert Scan([a]) == first;
    assert Scan([a, b]) == Step(Scan([a]), b);
  }

  // ---- Final-score ordering ----

  function Total(m: Matchup): real {
    m.homeScore + m.awayScore
  }

  function HigherTotal(a: Matchup, b: Matchup): bool {
    Total(a) > Total(b)
  }

  lemma HigherTotalIsStrictWeakOrder()
    ensures StrictWeakOrder(HigherTotal)
  {
  }

  /** `ordered` lists the same matchups, highest combined score first. */
  predicate ListedByTotal(matchups: seq<Matchup>, ordered: seq<Matchup>) {
    && multiset(ordered) == multiset(matchups)
    && forall i, j :: 0 <= i < j < |ordered| ==> Total(ordered[i]) >= Total(ordered[j])
  }

  /** The report's matchups, highest combined score first. */
  function OrderByTotal(matchups: seq<Matchup>): (r: seq<Matchup>)
    ensures |r| == |matchups| && multiset(r) == multiset(matchups)
    ensures forall i, j :: 0 <= i < j < |r| ==> Total(r[i]) >= Total(r[j])
    ensures ListedByTotal(matchups, r)
  {
    HigherTotalIsStrictWeakOrder();
    SortBySorted(matchups, HigherTotal);
    SortBy(matchups, HigherTotal)
  }

  // ---- Close games ----

  const CloseMargin := 16.0

  predicate IsClose(s: ScoreRecord) {
    Margin(s) <= CloseMargin
  }

  function ToCloseGame(s: ScoreRecord): CloseGame {
    CloseGame(ReportTeamName(s.homeTeamId), ReportTeamName(s.awayTeamId), s.homeScore, s.awayScore, Margin(s))
  }

  function SmallerMargin(a: CloseGame, b: CloseGame): bool {
    a.margin < b.margin
  }

  lemma SmallerMarginIsStrictWeakOrder()
    ensures StrictWeakOrder(SmallerMargin)
  {
  }

  /** The close records, as games, in input order. */
  function CloseRecords(scores: seq<ScoreRecord>): (r: seq<CloseGame>)
    ensures forall g :: g in r ==> g.margin <= CloseMargin
    ensures forall g :: g in r ==> exists i :: 0 <= i < |scores| && IsClose(scores[i]) && g == ToCloseGame(scores[i])
    ensures forall i :: 0 <= i < |scores| && IsClose(scores[i]) ==> ToCloseGame(scores[i]) in r
    ensures IsSubsequence(r, Map(scores, ToCloseGame))
    ensures |r| == |Filter(scores, IsClose, true)|
  {
    var kept := Filter(scores, IsClose, true);
    var r := Map(kept, ToCloseGame);
    MapSubsequence(kept, scores, ToCloseGame);
    MapFilterMembers(scores, IsClose, ToCloseGame);
    r
  }

  /** Every record within 16 points (inclusive), smallest margin first. */
  function FindCloseGames(scores: seq<ScoreRecord>): (r: seq<CloseGame>)
    ensures multiset(r) == multiset(CloseRecords(scores))
    ensures forall g :: g in r ==> g.margin <= CloseMargin
    ensures forall i :: 0 <= i < |scores| && IsClose(scores[i]) ==> ToCloseGame(scores[i]) in r
    ensures forall i, j :: 0 <= i < j < |r| ==> r[i].margin <= r[j].margin
    ensures |r| == |Filter(scores, IsClose, true)|
  {
    var games := CloseRecords(scores);
    SmallerMarginIsStrictWeakOrder();
    SortBySorted(games, SmallerMargin);
    var r := SortBy(games, SmallerMargin);
    SameElements(r, games);
    r
  }

  /** The 16-point bound is inclusive. */
  lemma CloseBoundary(s: ScoreRecord)
    ensures Margin(s) == 16.0 ==> IsClose(s)
    ensures Margin(s) == 16.01 ==> !IsClose(s)
  {
  }
}

=== FILE: seqs.dfy ===
/** Order-preserving sequence operations that the Go code writes as
    `for ... { if ... { append } }` loops and early-returning scans. */
module Seqs {
  import opened Wrappers

  /** `sub` is `s` with some elements dropped, the rest in their order. */
  predicate IsSubsequence<T(==)>(sub: seq<T>, s: seq<T>)
    decreases |s|
  {
    if |sub| == 0 then true
    else if |s| == 0 then false
    else if sub[|sub| - 1] == s[|s| - 1] then IsSubsequence(sub[..|sub| - 1], s[..|s| - 1])
    else IsSubsequence(sub, s[..|s| - 1])
  }

  /** Index of the first element satisfying `p`, scanning from the front. */
  function FindFirst<T>(s: seq<T>, p: T -> bool): (r: Option<nat>)
    ensures r.Some? ==> r.value < |s| && p(s[r.value])
    ensures r.Some? ==> forall j :: 0 <= j < r.value ==> !p(s[j])
    ensures r.None? ==> forall j :: 0 <= j < |s| ==> !p(s[j])
  {
    if |s| == 0 then None
    else if p(s[0]) then Some(0)
    else
      match FindFirst(s[1..], p)
      case None => None
      case Some(k) => Some(k + 1)
  }

  /** The elements `x` of `s` with `p(x) == keep`, in their original order:
      `keep` selects the filter (`true`) or its complement (`false`). */
  function Filter<T(==)>(s: seq<T>, p: T -> bool, keep: bool): (r: seq<T>)
    ensures |r| <= |s|
    ensures forall i :: 0 <= i < |r| ==> p(r[i]) == keep
    ensures forall i :: 0 <= i < |r| ==> r[i] in s
    ensures forall i :: 0 <= i < |s| && p(s[i]) == keep ==> s[i] in r
    ensures IsSubsequence(r, s)
  {
    if |s| == 0 then []
    else
      var init := s[..|s| - 1];
      var last := s[|s| - 1];
      var r := Filter(init, p, keep);
      SplitLast(s);
      if p(last) == keep then
        PrefixOfAppend(r, last);
        r + [last]
      else
        SubsequenceExtend(r, init, last);
        r
  }

  /** A non-empty sequence is its front followed by its last element. */
  lemma SplitLast<T>(s: seq<T>)
    requires |s| > 0
    ensures s == s[..|s| - 1] + [s[|s| - 1]]
  {
  }

  /** The two halves of a concatenation, and its elements as a multiset. */
  lemma AppendParts<T>(a: seq<T>, b: seq<T>)
    ensures (a + b)[..|a|] == a && (a + b)[|a|..] == b
    ensures multiset(a + b) == multiset(a) + multiset(b)
  {
  }

  lemma PrefixOfAppend<T>(s: seq<T>, x: T)
    ensures (s + [x])[..|s|] == s
  {
  }

  lemma {:induction false} SubsequenceExtend<T>(sub: seq<T>, s: seq<T>, x: T)
    requires IsSubsequence(sub, s)
    ensures IsSubsequence(sub, s + [x])
    decreases |s|, 1
  {
    var t := s + [x];
    assert t[..|t| - 1] == s;
    if |sub| == 0 {
    } else if sub[|sub| - 1] == x {
      SubsequenceDropLast(sub, s);
    }
  }

  lemma {:induction false} SubsequenceDropLast<T>(sub: seq<T>, s: seq<T>)
    requires |sub| > 0 && IsSubsequence(sub, s)
    ensures IsSubsequence(sub[..|sub| - 1], s)
    decreases |s|, 0
  {
    var init := sub[..|sub| - 1];
    if sub[|sub| - 1] == s[|s| - 1] {
      SubsequenceExtend(init, s[..|s| - 1], s[|s| - 1]);
      assert s[..|s| - 1] + [s[|s| - 1]] == s;
    } else {
      SubsequenceDropLast(sub, s[..|s| - 1]);
      SubsequenceExtend(init, s[..|s| - 1], s[|s| - 1]);
      assert s[..|s| - 1] + [s[|s| - 1]] == s;
    }
  }

  /** Splitting by a test and by its complement loses and duplicates nothing. */
  lemma {:induction false} FilterPartition<T>(s: seq<T>, p: T -> bool)
    ensures multiset(Filter(s, p, true)) + multiset(Filter(s, p, false)) == multiset(s)
    ensures |Filter(s, p, true)| + |Filter(s, p, false)| == |s|
  {
    if |s| > 0 {
      var init := s[..|s| - 1];
      FilterPartition(init, p);
      PartitionStep(s, p);
      MultisetOfLast(s);
    }
  }

  lemma MultisetOfLast<T>(s: seq<T>)
    requires |s| > 0
    ensures multiset(s) == multiset(s[..|s| - 1]) + multiset{s[|s| - 1]}
  {
    SplitLast(s);
  }

  /** Extending `s` by one element adds it to exactly one of the two parts. */
  lemma PartitionStep<T>(s: seq<T>, p: T -> bool)
    requires |s| > 0
    ensures var init, last := s[..|s| - 1], s[|s| - 1];
      && multiset(Filter(s, p, true)) + multiset(Filter(s, p, false))
         == multiset(Filter(init, p, true)) + multiset(Filter(init, p, false)) + multiset{last}
      && |Filter(s, p, true)| + |Filter(s, p, false)| == |Filter(init, p, true)| + |Filter(init, p, false)| + 1
  {
    var init, last := s[..|s| - 1], s[|s| - 1];
    FilterStep(s, p, true);
    FilterStep(s, p, false);
    var kept := Filter(init, p, p(last));
    assert multiset(kept + [last]) == multiset(kept) + multiset{last};
  }

  /** One step of `Filter`: the last element is appended exactly when kept. */
  lemma FilterStep<T>(s: seq<T>, p: T -> bool, keep: bool)
    requires |s| > 0
    ensures Filter(s, p, keep) == Filter(s[..|s| - 1], p, keep) + (if p(s[|s| - 1]) == keep then [s[|s| - 1]] else [])
  {
  }

  /** Permutations of each other hold the same elements. */
  lemma SameElements<T>(a: seq<T>, b: seq<T>)
    requires multiset(a) == multiset(b)
    ensures forall x :: x in a <==> x in b
  {
    forall x
      ensures x in a <==> x in b
    {
      assert x in a <==> x in multiset(a);
      assert x in b <==> x in multiset(b);
    }
  }

  function Map<T, U>(s: seq<T>, f: T -> U): (r: seq<U>)
    ensures |r| == |s|
    ensures forall i :: 0 <= i < |s| ==> r[i] == f(s[i])
  {
    seq(|s|, i requires 0 <= i < |s| => f(s[i]))
  }

  /** The images of the kept elements are exactly the images of the
      elements passing the test. */
  lemma MapFilterMembers<T, U>(s: seq<T>, p: T -> bool, f: T -> U)
    ensures forall y :: y in Map(Filter(s, p, true), f) ==> exists x :: x in s && p(x) && f(x) == y
    ensures forall x :: x in s && p(x) ==> f(x) in Map(Filter(s, p, true), f)
  {
    var kept := Filter(s, p, true);
    var r := Map(kept, f);
    forall y | y in r
      ensures exists x :: x in s && p(x) && f(x) == y
    {
      var k :| 0 <= k < |r| && r[k] == y;
      assert kept[k] in s && p(kept[k]);
    }
    forall x | x in s && p(x)
      ensures f(x) in r
    {
      var i :| 0 <= i < |s| && s[i] == x;
      assert x in kept;
      var k :| 0 <= k < |kept| && kept[k] == x;
      assert r[k] == f(x);
    }
  }

  /** Mapping keeps a subsequence a subsequence, even when `f` merges
      distinct elements. */
  lemma {:induction false} MapSubsequence<T, U>(sub: seq<T>, s: seq<T>, f: T -> U)
    requires IsSubsequence(sub, s)
    ensures IsSubsequence(Map(sub, f), Map(s, f))
    decreases |s|
  {
    if |sub| > 0 {
      var ms, msub := Map(s, f), Map(sub, f);
      assert ms[..|s| - 1] == Map(s[..|s| - 1], f);
      assert msub[..|sub| - 1] == Map(sub[..|sub| - 1], f);
      if sub[|sub| - 1] == s[|s| - 1] {
        MapSubsequence(sub[..|sub| - 1], s[..|s| - 1], f);
      } else {
        MapSubsequence(sub, s[..|s| - 1], f);
        if msub[|sub| - 1] == ms[|s| - 1] {
          SubsequenceDropLast(msub, ms[..|s| - 1]);
        }
      }
    }
  }

  /** Concatenation of a sequence of sequences, in order. */
  function Flatten<T>(ss: seq<seq<T>>): (r: seq<T>)
    ensures forall i, x :: 0 <= i < |ss| && x in ss[i] ==> x in r
  {
    if |ss| == 0 then [] else Flatten(ss[..|ss| - 1]) + ss[|ss| - 1]
  }
}

=== FILE: service_teams.dfy ===
/** The service layer's own team-name table (internal/service/fantasy.go),
    used by every report the service formats. */
module ServiceTeams {
  import EspnTables

  const ReportTeamNames: map<int, string> :=
    map[2 := "Coach Dad", 3 := "Megatron's Ghurl", 6 := "Team InvincibleVince",
        5 := "Beyond Cursed", 1 := "I Weigh Less Than Omar", 4 := "UGF Pandas"]

  function ReportTeamName(teamId: int): (r: string)
    ensures teamId in ReportTeamNames ==> r == ReportTeamNames[teamId]
    ensures r == EspnTables.Unknown <==> !(1 <= teamId <= 6)
  {
    EspnTables.Lookup(ReportTeamNames, teamId)
  }

  /** The two tables name every team alike except team 3. */
  lemma TablesDisagreeOnlyOnTeamThree(teamId: int)
    ensures ReportTeamName(teamId) == EspnTables.TeamName(teamId) <==> teamId != 3
  {
    if teamId == 3 {
      assert ReportTeamName(3)[0] == 'M' && EspnTables.TeamName(3)[0] == 'S';
    }
  }
}

=== FILE: sorting.dfy ===
/** A stable insertion sort driven by a Go-style `less` comparator, standing
    in for `sort.Slice`. */
module Sorting {

  /** What `sort.Slice` needs of `less`: asymmetry and transitivity of
      "not less", so that "equivalent" is an equivalence. */
  ghost predicate StrictWeakOrder<T(!new)>(less: (T, T) -> bool) {
    && (forall a, b :: less(a, b) ==> !less(b, a))
    && (forall a, b, c :: !less(b, a) && !less(c, b) ==> !less(c, a))
  }

  /** No element is `less` than one before it. */
  ghost predicate SortedBy<T>(less: (T, T) -> bool, s: seq<T>) {
    forall i, j :: 0 <= i < j < |s| ==> !less(s[j], s[i])
  }

  /** Puts `x` in front of the first element it is strictly `less` than. */
  function Insert<T>(x: T, s: seq<T>, less: (T, T) -> bool): (r: seq<T>)
    ensures multiset(r) == multiset(s) + multiset{x}
    ensures |r| == |s| + 1
  {
    if |s| == 0 then [x]
    else if less(x, s[0]) then [x] + s
    else
      assert s == [s[0]] + s[1..];
      [s[0]] + Insert(x, s[1..], less)
  }

  lemma LessTransitive<T(!new)>(less: (T, T) -> bool, a: T, b: T, c: T)
    requires StrictWeakOrder(less)
    requires less(a, b) && less(b, c)
    ensures less(a, c)
  {
  }

  lemma {:induction false} InsertKeepsSorted<T(!new)>(x: T, s: seq<T>, less: (T, T) -> bool)
    requires StrictWeakOrder(less) && SortedBy(less, s)
    ensures SortedBy(less, Insert(x, s, less))
  {
    if |s| == 0 {
    } else if less(x, s[0]) {
      var r := Insert(x, s, less);
      assert r == [x] + s;
      forall i, j | 0 <= i < j < |r|
        ensures !less(r[j], r[i])
      {
        if i == 0 && j > 1 {
          if less(s[j - 1], x) {
            LessTransitive(less, s[j - 1], x, s[0]);
          }
        }
      }
    } else {
      var t := Insert(x, s[1..], less);
      InsertKeepsSorted(x, s[1..], less);
      var r := Insert(x, s, less);
      assert r == [s[0]] + t;
      forall j | 0 <= j < |t|
        ensures !less(t[j], s[0])
      {
        assert t[j] in multiset(s[1..]) + multiset{x};
        if t[j] != x {
          assert t[j] in s[1..];
        }
      }
    }
  }

  /** Sorts by `less`, keeping equivalent elements in input order. */
  function SortBy<T>(s: seq<T>, less: (T, T) -> bool): (r: seq<T>)
    ensures multiset(r) == multiset(s)
    ensures |r| == |s|
  {
    if |s| == 0 then []
    else
      assert s == s[..|s| - 1] + [s[|s| - 1]];
      Insert(s[|s| - 1], SortBy(s[..|s| - 1], less), less)
  }

  /** Under a strict weak order the result of `SortBy` is sorted. */
  lemma {:induction false} SortBySorted<T(!new)>(s: seq<T>, less: (T, T) -> bool)
    requires StrictWeakOrder(less)
    ensures SortedBy(less, SortBy(s, less))
  {
    if |s| > 0 {
      SortBySorted(s[..|s| - 1], less);
      InsertKeepsSorted(s[|s| - 1], SortBy(s[..|s| - 1], less), less);
    }
  }
}

=== FILE: text.dfy ===
/** Character and number rendering used by the report formatters: ASCII
    lower-casing (`strings.ToLower`), `%d` and the fixed-point verbs
    `%.2f` / `%0.1f`. */
module Text {

  predicate IsUpper(c: char) {
    'A' <= c <= 'Z'
  }

  predicate IsDigit(c: char) {
    '0' <= c <= '9'
  }

  /** A character that may appear in a rendered number. */
  predicate IsNumeric(c: char) {
    IsDigit(c) || c == '-' || c == '.'
  }

  /** Lower-cases one character; only ASCII letters are mapped. */
  function LowerChar(c: char): (r: char)
    ensures !IsUpper(r)
    ensures IsUpper(c) ==> r as int == c as int + 32
    ensures !IsUpper(c) ==> r == c
  {
    if IsUpper(c) then (c as int + 32) as char else c
  }

  function ToLower(s: string): (r: string)
    ensures |r| == |s|
    ensures forall i :: 0 <= i < |r| ==> !IsUpper(r[i])
    ensures forall i :: 0 <= i < |s| && !IsUpper(s[i]) ==> r[i] == s[i]
    ensures forall i :: 0 <= i < |s| && IsUpper(s[i]) ==> r[i] as int == s[i] as int + 32
  {
    seq(|s|, i requires 0 <= i < |s| => LowerChar(s[i]))
  }

  /** Lower-casing twice is lower-casing once. */
  lemma ToLowerIdempotent(s: string)
    ensures ToLower(ToLower(s)) == ToLower(s)
  {
  }

  /** Concatenation of a sequence of text pieces, in order. */
  function Concat(parts: seq<string>): (r: string)
    ensures |parts| > 0 && |parts[|parts| - 1]| > 0 ==> |r| > 0 && r[|r| - 1] == parts[|parts| - 1][|parts[|parts| - 1]| - 1]
  {
    if |parts| == 0 then "" else Concat(parts[..|parts| - 1]) + parts[|parts| - 1]
  }

  /** `piece` occurs in `text` at offset `k`. */
  predicate PieceAt(text: string, piece: string, k: int) {
    0 <= k <= |text| - |piece| && text[k..k + |piece|] == piece
  }

  /** `piece` occurs in `text` at some offset. */
  ghost predicate Contains(text: string, piece: string) {
    exists k :: PieceAt(text, piece, k)
  }

  /** Text placed around a text keeps every piece it contains. */
  lemma ContainsInside(before: string, text: string, after: string, piece: string)
    requires Contains(text, piece)
    ensures Contains(before + text + after, piece)
  {
    var k :| PieceAt(text, piece, k);
    var whole := before + text + after;
    assert whole[|before| + k..|before| + k + |piece|] == text[k..k + |piece|];
    assert PieceAt(whole, piece, |before| + k);
  }

  /** A piece of a piece of `text` is a piece of `text`. */
  lemma ContainsWithin(text: string, middle: string, piece: string)
    requires Contains(text, middle) && Contains(middle, piece)
    ensures Contains(text, piece)
  {
    var k :| PieceAt(text, middle, k);
    var m :| PieceAt(middle, piece, m);
    forall t | 0 <= t < |piece|
      ensures text[k + m..k + m + |piece|][t] == piece[t]
    {
      assert text[k..k + |middle|][m + t] == middle[m + t];
      assert middle[m..m + |piece|][t] == piece[t];
    }
    assert PieceAt(text, piece, k + m);
  }

  /** A header followed by a listing: the header leads, and every piece
      of the listing occurs in the text. */
  lemma HeadedConcatContains(header: string, parts: seq<string>)
    ensures header <= header + Concat(parts)
    ensures forall i :: 0 <= i < |parts| ==> Contains(header + Concat(parts), parts[i])
  {
    forall i | 0 <= i < |parts|
      ensures Contains(header + Concat(parts), parts[i])
    {
      ConcatContains(parts, i);
      ContainsInside(header, Concat(parts), "", parts[i]);
      assert header + Concat(parts) + "" == header + Concat(parts);
    }
  }

  /** Two listings, each after its own heading: every piece of either
      listing occurs in the text. */
  lemma TwoListingsContain(first: string, xs: seq<string>, second: string, ys: seq<string>)
    ensures forall x :: x in xs ==> Contains(first + Concat(xs) + second + Concat(ys), x)
    ensures forall y :: y in ys ==> Contains(first + Concat(xs) + second + Concat(ys), y)
    ensures first <= first + Concat(xs) + second + Concat(ys)
  {
    var text := first + Concat(xs) + second + Concat(ys);
    assert text == first + (Concat(xs) + second + Concat(ys));
    assert text[..|first|] == first;
    forall x | x in xs
      ensures Contains(text, x)
    {
      var k :| 0 <= k < |xs| && xs[k] == x;
      ConcatContains(xs, k);
      ContainsInside(first, Concat(xs), second + Concat(ys), x);
      assert first + Concat(xs) + (second + Concat(ys)) == text;
    }
    forall y | y in ys
      ensures Contains(text, y)
    {
      var k :| 0 <= k < |ys| && ys[k] == y;
      ConcatContains(ys, k);
      ContainsInside(first + Concat(xs) + second, Concat(ys), "", y);
      assert first + Concat(xs) + second + Concat(ys) + "" == text;
    }
  }

  /** Every piece of a concatenation occurs in it. */
  lemma {:induction false} ConcatContains(parts: seq<string>, i: nat)
    requires i < |parts|
    ensures Contains(Concat(parts), parts[i])
  {
    var init := parts[..|parts| - 1];
    var last := parts[|parts| - 1];
    if i == |parts| - 1 {
      var whole := Concat(init) + last;
      assert whole[|Concat(init)|..|Concat(init)| + |last|] == last;
      assert PieceAt(whole, last, |Concat(init)|);
    } else {
      ConcatContains(init, i);
      assert init[i] == parts[i];
      ContainsInside("", Concat(init), last, parts[i]);
      assert "" + Concat(init) + last == Concat(parts);
    }
  }

  function DigitChar(d: nat): (c: char)
    requires d < 10
    ensures IsDigit(c)
  {
    ('0' as int + d) as char
  }

  function DigitValue(c: char): (d: nat)
    requires IsDigit(c)
    ensures d < 10 && DigitChar(d) == c
  {
    c as int - '0' as int
  }

  /** Decimal digits of `n`, most significant first, no leading zeros. */
  function NatToString(n: nat): (r: string)
    ensures 0 < |r|
    ensures forall i :: 0 <= i < |r| ==> IsDigit(r[i])
    decreases n
  {
    if n < 10 then [DigitChar(n)] else NatToString(n / 10) + [DigitChar(n % 10)]
  }

  /** Reads a string of decimal digits back into a number. */
  function ParseNat(s: string): nat
    requires forall i :: 0 <= i < |s| ==> IsDigit(s[i])
  {
    if |s| == 0 then 0 else ParseNat(s[..|s| - 1]) * 10 + DigitValue(s[|s| - 1])
  }

  /** `NatToString` loses nothing: parsing its digits gives the number back. */
  lemma {:induction false} ParseNatToString(n: nat)
    ensures ParseNat(NatToString(n)) == n
    decreases n
  {
    var s := NatToString(n);
    if n < 10 {
      assert DigitValue(s[0]) == n;
    } else {
      ParseNatToString(n / 10);
      assert s[..|s| - 1] == NatToString(n / 10);
      assert DigitValue(s[|s| - 1]) == n % 10;
    }
  }

  /** `%d` on a Go int. */
  function IntToString(i: int): (r: string)
    ensures 0 < |r|
    ensures forall k :: 0 <= k < |r| ==> IsNumeric(r[k])
    ensures i < 0 <==> r[0] == '-'
  {
    if i < 0 then "-" + NatToString(-i) else NatToString(i)
  }

  /** Nearest integer, exact halves going to the even neighbour, as Go's
      `strconv` does when it rounds a value for a fixed-point verb. */
  function RoundHalfEven(x: real): int {
    var f := x.Floor;
    if x - f as real > 0.5 || (x - f as real == 0.5 && f % 2 != 0) then f + 1 else f
  }

  /** `RoundHalfEven` is a nearest integer, and an even one on a tie. */
  lemma RoundHalfEvenIsNearest(x: real)
    ensures x - 0.5 <= RoundHalfEven(x) as real <= x + 0.5
    ensures RoundHalfEven(x) as real == x + 0.5 || RoundHalfEven(x) as real == x - 0.5 ==> RoundHalfEven(x) % 2 == 0
  {
  }

  /** The rounded count of `1/10^places` units in a non-negative magnitude:
      the magnitude is scaled by ten once per place, then rounded. */
  function ScaledUnits(magnitude: real, places: nat): (n: nat)
    requires magnitude >= 0.0
    decreases places
  {
    if places == 0 then
      RoundHalfEvenIsNearest(magnitude);
      RoundHalfEven(magnitude)
    else ScaledUnits(magnitude * 10.0, places - 1)
  }

  /** The units of `n` above its last `places` decimal digits: `n / 10^places`. */
  function WholeUnits(n: nat, places: nat): nat
    decreases places
  {
    if places == 0 then n else WholeUnits(n / 10, places - 1)
  }

  /** The last `places` decimal digits of `n`, leading zeros kept. */
  function FractionDigits(n: nat, places: nat): (r: string)
    ensures |r| == places
    ensures forall i :: 0 <= i < |r| ==> IsDigit(r[i])
    decreases places
  {
    if places == 0 then "" else FractionDigits(n / 10, places - 1) + [DigitChar(n % 10)]
  }

  /** `magnitude * 10^places`, written as repeated multiplication by ten. */
  function Shifted(magnitude: real, places: nat): real
    decreases places
  {
    if places == 0 then magnitude else 10.0 * Shifted(magnitude, places - 1)
  }

  /** Scaling the magnitude first is scaling the result: the shift commutes. */
  lemma {:induction false} ShiftedStep(magnitude: real, places: nat)
    requires places > 0
    ensures Shifted(magnitude * 10.0, places - 1) == Shifted(magnitude, places)
    decreases places
  {
    if places > 1 {
      ShiftedStep(magnitude, places - 1);
    }
  }

  /** Scaling once per place and then rounding is rounding `magnitude * 10^places`. */
  lemma {:induction false} ScaledUnitsRoundsShifted(magnitude: real, places: nat)
    requires magnitude >= 0.0
    ensures ScaledUnits(magnitude, places) == RoundHalfEven(Shifted(magnitude, places))
    decreases places
  {
    if places > 0 {
      ScaledUnitsRoundsShifted(magnitude * 10.0, places - 1);
      ShiftedStep(magnitude, places);
    }
  }

  function Pow10(n: nat): (r: nat)
    ensures r >= 1
  {
    if n == 0 then 1 else 10 * Pow10(n - 1)
  }

  lemma PowerStep(places: nat)
    requires places > 0
    ensures Pow10(places) == 10 * Pow10(places - 1)
  {
  }

  /** Appending a digit multiplies the parsed value by ten and adds it. */
  lemma ParseNatAppendDigit(s: string, d: nat)
    requires d < 10 && forall i :: 0 <= i < |s| ==> IsDigit(s[i])
    ensures ParseNat(s + [DigitChar(d)]) == ParseNat(s) * 10 + d
  {
    var t := s + [DigitChar(d)];
    assert t[..|t| - 1] == s;
  }

  lemma DigitShift(n: nat, w: nat, q: nat, r: nat)
    requires w * q + r == n / 10
    ensures w * (10 * q) + (r * 10 + n % 10) == n
  {
    assert w * (10 * q) == 10 * (w * q);
  }

  /** The rendered whole part and fraction digits lose nothing: together
      they give back the unit count. */
  lemma {:induction false} UnitsSplit(n: nat, places: nat)
    ensures WholeUnits(n, places) * Pow10(places) + ParseNat(FractionDigits(n, places)) == n
    decreases places
  {
    if places > 0 {
      UnitsSplit(n / 10, places - 1);
      var rest := FractionDigits(n / 10, places - 1);
      ParseNatAppendDigit(rest, n % 10);
      PowerStep(places);
      DigitShift(n, WholeUnits(n / 10, places - 1), Pow10(places - 1), ParseNat(rest));
    }
  }

  /** The digits of `n` units of `1/10^places`: whole part, then a point and
      exactly `places` fraction digits when `places > 0`. */
  function UnitsToDigits(n: nat, places: nat): (r: string)
    ensures 0 < |r| && IsDigit(r[0])
    ensures forall i :: 0 <= i < |r| ==> IsNumeric(r[i])
    ensures places > 0 ==> |r| > places && r[|r| - places - 1] == '.'
  {
    var whole := NatToString(WholeUnits(n, places));
    if places == 0 then whole else whole + "." + FractionDigits(n, places)
  }

  /** `%.<places>f` of `x`: an optional minus sign, the integer part, and
      `places` rounded fraction digits. */
  function FixedPoint(x: real, places: nat): (r: string)
    ensures 0 < |r|
    ensures forall i :: 0 <= i < |r| ==> IsNumeric(r[i])
    ensures x < 0.0 <==> r[0] == '-'
  {
    var digits := UnitsToDigits(ScaledUnits(if x < 0.0 then -x else x, places), places);
    if x < 0.0 then "-" + digits else digits
  }

  /** The digits of `a` followed by those of `b` read as `a` shifted past `b`. */
  lemma {:induction false} ParseNatConcat(a: string, b: string)
    requires forall i :: 0 <= i < |a| ==> IsDigit(a[i])
    requires forall i :: 0 <= i < |b| ==> IsDigit(b[i])
    ensures ParseNat(a + b) == ParseNat(a) * Pow10(|b|) + ParseNat(b)
    decreases |b|
  {
    var ab := a + b;
    if |b| == 0 {
      assert ab == a;
    } else {
      var init := b[..|b| - 1];
      ParseNatConcat(a, init);
      assert ab[..|ab| - 1] == a + init;
      PowerStep(|b|);
      DigitShift(ParseNat(ab), ParseNat(a), Pow10(|init|), ParseNat(init));
    }
  }

  /** Removing the point from `UnitsToDigits(n, places)` leaves the digits of `n`. */
  lemma UnitsToDigitsReadsBack(n: nat, places: nat)
    requires places > 0
    ensures var r := UnitsToDigits(n, places);
      var k := |r| - places - 1;
      var digits := r[..k] + r[k + 1..];
      && (forall i :: 0 <= i < |digits| ==> IsDigit(digits[i]))
      && ParseNat(digits) == n
  {
    var whole := NatToString(WholeUnits(n, places));
    var frac := FractionDigits(n, places);
    var r := UnitsToDigits(n, places);
    assert r == whole + "." + frac;
    assert r[..|whole|] == whole && r[|whole| + 1..] == frac;
    ParseNatConcat(whole, frac);
    ParseNatToString(WholeUnits(n, places));
    UnitsSplit(n, places);
  }

  /** `%.<places>f` round trip: after the sign, reading the rendered text with
      its point removed gives a count of `1/10^places` units within half a
      unit of `|x| * 10^places`. */
  lemma FixedPointIsNearest(x: real, places: nat)
    requires places > 0
    ensures var r := FixedPoint(x, places);
      var u := if x < 0.0 then r[1..] else r;
      var k := |u| - places - 1;
      && 0 <= k && u[k] == '.'
      && var digits := u[..k] + u[k + 1..];
      && (forall i :: 0 <= i < |digits| ==> IsDigit(digits[i]))
      && var target := Shifted(if x < 0.0 then -x else x, places);
      && target - 0.5 <= ParseNat(digits) as real <= target + 0.5
  {
    var m := if x < 0.0 then -x else x;
    var n := ScaledUnits(m, places);
    UnitsToDigitsReadsBack(n, places);
    ScaledUnitsRoundsShifted(m, places);
    RoundHalfEvenIsNearest(Shifted(m, places));
  }

  /** `%.2f`. */
  function Fixed2(x: real): (r: string)
    ensures 0 < |r| && forall i :: 0 <= i < |r| ==> IsNumeric(r[i])
  {
    FixedPoint(x, 2)
  }

  /** A rendered number is never one of the report's word labels. */
  lemma FixedIsNotWord(x: real, word: string)
    requires 0 < |word| && !IsNumeric(word[0])
    ensures Fixed2(x) != word
  {
    assert Fixed2(x)[0] != word[0];
  }
}

=== FILE: wrappers.dfy ===
/** Failure-carrying values shared by every module: an optional value and a
    result whose failure side is the text of a Go `error`. */
module Wrappers {

  datatype Option<+T> = None | Some(value: T)

  /** `Err` carries the message that `err.Error()` would print. */
  datatype Result<+T> = Ok(value: T) | Err(error: string)
}
